=== FILE: README.md ===
# Live Connect: event sync and modal enhancer, modelled in Dafny

Live Connect is a WordPress plugin. It copies events from an external
platform into The Events Calendar and enriches the calendar's event modal
with artists, social links and media. This project models its two central
classes as pure functions over an explicit host store and proves
properties of them.

- `LiveConnect_Event_Sync` reconciles one page of upstream events with
  `tribe_events` posts. The key is the platform's event id, kept in the
  `_live_connect_platform_id` meta key.
  - Venues are resolved by title and are created when missing.
  - Each synced event gets one row in the `live_connect_event_meta` side
    table. That table is unique on `platform_event_id` and is written with
    `REPLACE`.
- `LiveConnect_Modal_Enhancer` reads a side-table row back by local post id.
  It assembles the enhanced block: artists, then social links, then media.
  The block is appended to the modal content, or sent from the AJAX
  endpoint.

## Layout

| file | module | contents |
|---|---|---|
| `wrappers.dfy` | `Wrappers` | `Option`, `Result` |
| `php.dfy` | `Php` | PHP's `empty()` on an optional string, `trim`, `ucfirst`, `absint` |
| `host.dfy` | `Host` | the host functions the plugin calls, as uninterpreted function values: sanitising, `wp_kses_post`, the unslashing WordPress applies to stored values, date parsing, `current_time`, the escapers; plus whether the calendar plugin is active |
| `upstream.dfy` | `Upstream` | the decoded API payload: events, venues, artists, social entries, media; the API client's result |
| `store.dfy` | `HostStore` | the host store. Event and venue posts are maps from post id. The side table is a sequence of rows in table order. One id counter serves both post types. Also newest-first lookup, `REPLACE` (single and in runs), and `get_row` by post id |
| `event_sync.dfy` | `EventSync` | `sync_all_events`, `sync_single_event`, `create_event`, `update_event`, `get_event_by_platform_id`, `store_event_metadata`, `get_or_create_venue`, `format_date` |
| `sync_properties.dfy` | `SyncProperties` | re-sync, uniqueness, venue deduplication and row linkage, across one event and across a batch |
| `modal_enhancer.dfy` | `ModalEnhancer` | `should_enhance_modals`, `get_enhanced_event_data`, `build_enhanced_content`, `enhance_event_modal`, `ajax_get_enhanced_content` |
| `enhancer_properties.dfy` | `EnhancerProperties` | media rendering as a filter-map; the AJAX handler compared with the modal filter |
| `synced_content.dfy` | `SyncedContent` | what a synced event looks like in its modal |
| `batch_resync.dfy` | `BatchResync` | re-running a whole page: posts, venues and the id counter come out identical, and the side table differs only in timestamps |
| `sync_findings.dfy` | `SyncFindings` | a concrete two-sync run showing the lookup-key discrepancy below, and the corrected behaviour |

### How the host is modelled

- **Posts.** Post ids are positive, and `0` means "no venue".
  - `get_posts` with `posts_per_page => 1` returns the newest match. It
    only sees published posts, which is its default status. "Newest" is
    taken to be the highest id.
  - `wp_insert_post` takes the next id.
  - WordPress unslashes every post field and meta value it stores. A stored
    title or platform id is therefore the unslashed form of the sanitised
    input (`StoredText`).
  - The meta query drops a `meta_value` that is exactly `""`. The lookup
    then matches any published event carrying a platform id. Any other
    value is trimmed with PHP's `trim` and compared as it then is, without
    unslashing (`MetaValueQuery`).
  - The `title` query var is trimmed first. If that leaves `""` it is
    dropped, and the lookup matches any published venue. Otherwise the
    trimmed title is unslashed and then compared (`TitleQuery`).
- **Side table.** A `REPLACE` deletes every row with the same
  `platform_event_id` and appends the new row. The `SELECT … WHERE event_id`
  read by `get_row` returns the first row with that post id, in table order.
- **Lookup keys.** The sync is parameterised by `LookupKeys`:
  - `RawLookup` is the code as written: the lookups compare against the
    raw upstream id and the raw venue name.
  - `SanitizedLookup` gives the event lookup the stored id (sanitised, then
    unslashed) and the venue lookup the sanitised name, which the title
    query unslashes itself. Both then compare what the host stored, unless
    the query's trim changes it. See "Findings".
- **Rendered block.** The block is structured data (sections, cards, links,
  items) rather than an HTML string. Each value in it is the escaper
  applied to the corresponding input.

## Model

| member | source | states |
|---|---|---|
| `Php.Ucfirst` | includes/class-live-connect-modal-enhancer.php:201 | the link label keeps its length and its tail; only the first character is upper-cased (ASCII) |
| `Php.TrimIgnoresPadding` | includes/class-live-connect-event-sync.php:140-145 | PHP's `trim`, which the host's meta and title queries apply to their values: trim characters added at either end of a string do not survive it |
| `Php.TrimIdempotent` | includes/class-live-connect-event-sync.php:140-145 | trimming an already trimmed value changes nothing (used by `EventSync.MetaValueIgnoresPadding` and `EventSync.TitleIgnoresPadding`) |
| `Php.Absint` | includes/class-live-connect-modal-enhancer.php:148 | the posted id becomes its absolute value, and it is zero exactly when the input is zero |
| `EventSync.SyncAllEvents` | includes/class-live-connect-event-sync.php:28-59 | an inactive calendar gives `missing_tec` and a failed fetch returns the API error, both with nothing written; the result is counts exactly when the calendar is active and the fetch succeeded; a payload without an `events` array gives (0, 0) and no writes; otherwise synced + errors is the number of events and errors is the number lacking `id` or `title` |
| `EventSync.SyncEvents` | includes/class-live-connect-event-sync.php:39-53 | every event is counted once, as synced or as an error; the errors are exactly the events lacking a required field; the store stays valid and only grows |
| `EventSync.SyncSingleEvent` | includes/class-live-connect-event-sync.php:65-78 | an event without `id` or `title` is rejected with `invalid_event_data` before any write; any other event is upserted and its post id returned |
| `EventSync.Upsert` | includes/class-live-connect-event-sync.php:70-77 | the post found for the platform id is updated in place (same keys), or else a new published post carrying the sanitised id is created; either way no newer post matches the lookup, the post holds the event's fields and venue, and the side table is the old one with the event's row replaced |
| `EventSync.CreateEvent` | includes/class-live-connect-event-sync.php:83-107 | exactly one new post, at the next free id after the venue step; published, with the sanitised platform id, the event's fields and the resolved venue; no other post changes; then the event's row is written |
| `EventSync.UpdateEvent` | includes/class-live-connect-event-sync.php:112-134 | no post is added and no other post changes; the post gets the event's title, content, dates and resolved venue, keeping its status and platform id; then the event's row is written |
| `EventSync.WithEventFields` | includes/class-live-connect-event-sync.php:113-122 | the written post carries the sanitised title and the formatted dates, references the given venue, and keeps its status and platform id |
| `EventSync.GetEventByPlatformId` | includes/class-live-connect-event-sync.php:139-148 | nothing is found exactly when no published post matches the condition; otherwise the result matches it and no newer post does. A post matches when it has a platform id and the condition admits it: the condition compares the trimmed `meta_value`, or is dropped when the value is exactly `""` |
| `EventSync.GetVenueByTitle` | includes/class-live-connect-event-sync.php:181-188 | nothing is found exactly when no published venue matches the condition; otherwise the newest one that does. The condition compares the trimmed, then unslashed title, and is dropped, matching every published venue, when the trim leaves `""` |
| `EventSync.MetaValueIgnoresPadding` | includes/class-live-connect-event-sync.php:140-145 | whitespace around a non-empty platform id does not change the event lookup's condition; nor does trimming the id beforehand, unless that leaves `""` |
| `EventSync.TitleIgnoresPadding` | includes/class-live-connect-event-sync.php:181-185 | whitespace around a venue name does not change the venue lookup's condition, nor whether it is dropped; a name trimmed beforehand gives the same condition |
| `EventSync.MetaRowFor` | includes/class-live-connect-event-sync.php:158-167 | the row holds the post id, the sanitised platform id, each payload (an absent one as an empty array), status `completed` and the host's current time |
| `EventSync.StoreEventMetadata` | includes/class-live-connect-event-sync.php:153-170 | posts are untouched; the new row is in the table and no other row keeps its platform id; rows with other platform ids survive; nothing else is added; the key stays unique |
| `EventSync.GetOrCreateVenue` | includes/class-live-connect-event-sync.php:175-207 | 0 exactly for a name PHP's `empty()` rejects, with nothing written; an existing published venue that the title condition matches is reused, and it is the newest such; otherwise exactly one published venue is created at the next id; events and rows are untouched |
| `EventSync.NewVenuePost` | includes/class-live-connect-event-sync.php:192-204 | a created venue is published; its title and its address, city, state, zip and country are the sanitised, unslashed inputs (an absent one as `""`), and its content is the unslashed `wp_kses_post` of the description |
| `EventSync.FormatDate` | includes/class-live-connect-event-sync.php:212-219 | an empty or unparsable date gives `""`; a non-empty result is exactly the parsed date |
| `HostStore.FindNewest` | includes/class-live-connect-event-sync.php:140-147 | the newest match, if any: it satisfies the query and no newer post does; none exactly when no post matches |
| `HostStore.Replace` | includes/class-live-connect-event-sync.php:169 | after `REPLACE` the new row is last and is the only row with its platform id; rows with other ids survive; nothing else appears; uniqueness of the key is preserved |
| `HostStore.ReplaceTwice` | includes/class-live-connect-event-sync.php:169 | last write wins: two replacements under one platform id equal the second one alone |
| `HostStore.ReplaceTimestampOnly` | includes/class-live-connect-event-sync.php:166-169 | re-writing a row with only a new timestamp keeps every row in place and, among the modelled columns, changes nothing but that timestamp |
| `HostStore.ReplaceAll` | includes/class-live-connect-event-sync.php:43-53 | a run of `REPLACE`s, one per synced event, keeps `platform_event_id` unique |
| `HostStore.ReplaceAllKeepsOthers` | includes/class-live-connect-event-sync.php:169 | rows under keys the run does not write survive it unchanged and in order: leaving out any key set that covers the run's keys, the table is the same before and after |
| `HostStore.ReplaceAllAgrees` | includes/class-live-connect-event-sync.php:166-169 | among the modelled columns: two tables that differ only in `last_sync` outside the keys a run writes, put through two runs that differ only in `last_sync`, come out differing only in `last_sync` |
| `HostStore.ReplayChangesOnlyTimestamps` | includes/class-live-connect-event-sync.php:166-169 | replaying a run of rows that differ from the first run's only in `last_sync` changes no modelled column but `last_sync` |
| `HostStore.FirstByEventId` | includes/class-live-connect-modal-enhancer.php:122-125 | nothing exactly when no row has the post id; otherwise the first row, in table order, that has it |
| `SyncProperties.UpsertIsFound` | includes/class-live-connect-event-sync.php:71-93 | when the lookup compares the stored id (`IdFoundAgain`), the post written is one the same lookup matches |
| `SyncProperties.UpsertVenueIsFound` | includes/class-live-connect-event-sync.php:181-206 | when the venue lookup compares the stored title (`VenueNameStable`), the referenced venue is published under the looked-up title and is the newest such |
| `SyncProperties.SyncSingleCovers` | includes/class-live-connect-event-sync.php:65-78 | after one sync of an event whose id and venue name are found again, its next sync finds both its post and its venue |
| `SyncProperties.SyncEventsCovers` | includes/class-live-connect-event-sync.php:43-53 | after a batch, every event of the batch whose id and venue name are found again (`BatchStable`) is found again together with its venue |
| `SyncProperties.CoveredSyncCreatesNothing` | includes/class-live-connect-event-sync.php:70-77 | syncing an event whose post and venue are found creates no post, no venue and leaves every venue as it was |
| `SyncProperties.CoveredBatchCreatesNothing` | includes/class-live-connect-event-sync.php:43-53 | a batch whose events are all found creates no post and no venue |
| `SyncProperties.ResyncAddsNothing` | includes/class-live-connect-event-sync.php:28-59 | syncing the same batch twice, when every id and venue name is found again: the second run adds no event post and no venue post (the full comparison is `BatchResync.BatchResyncChangesOnlyTimestamps`) |
| `SyncProperties.SanitizedResyncAddsNothing` | includes/class-live-connect-event-sync.php:28-59 | with the event lookup given the stored id and the venue lookup the sanitised name, a second run adds no event post and no venue post, for every batch whose stored ids and sanitised venue names have no trim character at either end |
| `SyncProperties.SanitizedLookupIsStable` | includes/class-live-connect-event-sync.php:139-148 | given the stored id, the event lookup finds it again exactly when that id is empty or has no trim character at either end; given the sanitised name, the venue lookup finds the stored title whenever the sanitised name has none |
| `SyncProperties.SyncedPostIsNewest` | includes/class-live-connect-event-sync.php:139-148 | when the id is found again (`IdFoundAgain`), the lookup after a sync returns exactly the post that sync reported |
| `SyncProperties.SyncedVenueIsNewest` | includes/class-live-connect-event-sync.php:181-189 | when the venue name is found again and the host sanitises and unslashes as before, resolving the venue again after a sync returns the venue the post references, and writes nothing |
| `SyncProperties.SyncedPostIsSettled` | includes/class-live-connect-event-sync.php:113-122 | with the same sanitiser, unslashing, `wp_kses_post` and date parser, the synced post already holds every field a second update would write |
| `SyncProperties.UpdateSettledPost` | includes/class-live-connect-event-sync.php:112-134 | updating a post that already holds the fields, with its venue already resolved, only rewrites the side-table row |
| `SyncProperties.ResyncOnlyRewritesRow` | includes/class-live-connect-event-sync.php:65-78 | a second sync of an event whose id and venue name are found again, at any later time, reports the same post and only rewrites its row |
| `SyncProperties.ResyncEventChangesOnlyTimestamp` | includes/class-live-connect-event-sync.php:153-170 | idempotence up to `last_sync`, when the event's id and venue name are found again: after a second sync, posts, venues and the id counter are identical, and every row is in place with, among the modelled columns, only its timestamp possibly changed |
| `SyncProperties.SyncedRowReplaces` | includes/class-live-connect-event-sync.php:169 | the side table after a sync is the previous table with the event's row replaced |
| `SyncProperties.UpsertPreservesUniquePlatformIds` | includes/class-live-connect-event-sync.php:70-93 | an upsert of an id that is found again never gives two published posts the same platform id |
| `SyncProperties.SyncSinglePreservesUniquePlatformIds` | includes/class-live-connect-event-sync.php:65-78 | the same for one sync, including the rejected-event path |
| `SyncProperties.SyncPreservesUniquePlatformIds` | includes/class-live-connect-event-sync.php:43-53 | across a batch whose ids are all found again, published posts keep pairwise distinct platform ids |
| `SyncProperties.VenueDedup` | includes/class-live-connect-event-sync.php:175-207 | when the venue lookup compares the stored title, resolving a venue creates one only when no published venue has its title, and that venue is then the only one with it |
| `SyncProperties.SyncSingleDedupsVenue` | includes/class-live-connect-event-sync.php:92 | the same for one event's sync, when its venue name is found again |
| `SyncProperties.SyncDedupsVenues` | includes/class-live-connect-event-sync.php:43-53 | across a batch whose venue names are all found again, a venue named by several events is created once: each created venue is published and is the only published venue with its title |
| `SyncProperties.SyncSinglePreservesRowsLinked` | includes/class-live-connect-event-sync.php:153-169 | when the stored id is non-empty and found again (`IdStable`), and the row key equals it (`RowKeyStable`), every side-table row keeps pointing at a post that carries the row's platform id |
| `SyncProperties.LastRowIsOnlyRow` | includes/class-live-connect-activator.php:63 | in a linked table with a unique key, the last row written is the only row of its post and the first one `get_row` finds |
| `SyncProperties.LinkedRowsHaveDistinctEvents` | includes/class-live-connect-activator.php:63 | with the unique key on `platform_event_id`, linked rows belong to distinct posts |
| `SyncProperties.UpsertHasItsRow` | includes/class-live-connect-event-sync.php:158-169 | given linked rows (`RowsLinked`), `IdStable` and `RowKeyStable`: after an upsert, the post has exactly one row, the one just written, and reading by post id returns it |
| `SyncProperties.SyncedEventHasItsRow` | includes/class-live-connect-event-sync.php:153-170 | given `RowsLinked`, `IdStable` and `RowKeyStable`: after a sync, the post has exactly one row: `completed`, its own id, absent payloads as empty arrays; reading by post id returns it |
| `SyncedContent.SyncPreservesRowsLinked` | includes/class-live-connect-event-sync.php:43-53 | row links survive a whole batch whose events are all `IdStable` and `RowKeyStable` |
| `SyncedContent.SyncedEventIsShown` | includes/class-live-connect-modal-enhancer.php:91-105 | given `RowsLinked`, `IdStable` and `RowKeyStable`: once an event is synced, its modal (toggle on) is the original content followed by a block built from that event's own data; each section is present exactly when the event supplied a non-empty list |
| `BatchResync.RunKeepsLookup` | includes/class-live-connect-event-sync.php:139-148 | once a non-empty key finds a post, it finds the same post after any later batch of `IdStable` events |
| `BatchResync.RunKeepsVenue` | includes/class-live-connect-event-sync.php:181-188 | once a non-empty title finds a venue, it finds the same venue after any later batch whose venue names are found again |
| `BatchResync.FirstRunTable` | includes/class-live-connect-event-sync.php:43-53 | the first run's side table is the old one with one row per valid event replaced in order, each row naming the post the event's lookup finds afterwards |
| `BatchResync.FirstRunSettles` | includes/class-live-connect-event-sync.php:112-122 | after the first run, the last event of the batch writing each post finds that post already holding every field it would write |
| `BatchResync.RerunTable` | includes/class-live-connect-event-sync.php:153-170 | a second run over a store shaped like the first run's result replaces the same rows, in the same order |
| `BatchResync.RerunPosts` | includes/class-live-connect-event-sync.php:65-78 | that second run finds every event's post and venue, so it adds nothing and leaves every post as the first run left it |
| `BatchResync.BatchResyncChangesOnlyTimestamps` | includes/class-live-connect-event-sync.php:28-59 | syncing a batch a second time, at any later time, when every event is `IdStable` and its venue name is found again under a title condition that is not dropped: the same counts, identical event posts, venues and id counter, and a side table that differs only in `last_sync` among the modelled columns |
| `BatchResync.SanitizedBatchResyncChangesOnlyTimestamps` | includes/class-live-connect-event-sync.php:28-59 | with the event lookup given the stored id and the venue lookup the sanitised name, the same holds whenever every stored id and sanitised venue name is non-empty and has no trim character at either end, again comparing the modelled columns only |
| `ModalEnhancer.ShouldEnhanceModals` | includes/class-live-connect-modal-enhancer.php:110-112 | enhancement is on exactly when the option is unset or exactly `enabled` |
| `ModalEnhancer.GetEnhancedEventData` | includes/class-live-connect-modal-enhancer.php:117-137 | no data exactly when no row has the post id; otherwise the payloads of a row with that id |
| `ModalEnhancer.ArtistCardOf` | includes/class-live-connect-modal-enhancer.php:178-190 | each part of a card is present exactly when the artist's field is non-empty, escaped with the matching escaper |
| `ModalEnhancer.ArtistCards` | includes/class-live-connect-modal-enhancer.php:177-191 | one card per artist, in input order |
| `ModalEnhancer.SocialLinks` | includes/class-live-connect-modal-enhancer.php:199-203 | one link per entry, in input order: escaped URL, escaped platform as the class suffix, the escaped capitalised platform as the label |
| `ModalEnhancer.MediaItemOf` | includes/class-live-connect-modal-enhancer.php:212-218 | an `image` renders an image with its caption (or `""`) as alt text, a `video` renders a video, and any other type renders nothing |
| `ModalEnhancer.MediaItems` | includes/class-live-connect-modal-enhancer.php:211-219 | one item per image or video entry, each the rendering of an input entry (input order is `EnhancerProperties.MediaItemsAppend`) |
| `ModalEnhancer.BuildEnhancedContent` | includes/class-live-connect-modal-enhancer.php:170-225 | each section is present exactly when its data is non-empty; sections are always in the order artists, social, media; each holds the rendering of its data |
| `ModalEnhancer.EnhanceEventModal` | includes/class-live-connect-modal-enhancer.php:91-105 | the content is returned unchanged when the toggle is off or the post has no row; otherwise exactly one piece is appended after it, the block built from the row |
| `ModalEnhancer.AjaxGetEnhancedContent` | includes/class-live-connect-modal-enhancer.php:142-165 | errors in the source's order: bad nonce, then zero id, then no row; success exactly when the nonce is valid, the id is non-zero and a row has its absolute value; the reply carries that id and its block |
| `EnhancerProperties.MediaItemsAppend` | includes/class-live-connect-modal-enhancer.php:211-219 | media rendering distributes over concatenation, so items come out in input order |
| `EnhancerProperties.MediaItemsSingle` | includes/class-live-connect-modal-enhancer.php:212-218 | a single entry renders to its own item, or to nothing |
| `EnhancerProperties.UnknownMediaRendersNothing` | includes/class-live-connect-modal-enhancer.php:212-218 | entries of any type other than `image` or `video` render nothing at all |
| `EnhancerProperties.AjaxAgreesWithModal` | includes/class-live-connect-modal-enhancer.php:142-165 | with the toggle on, a valid nonce and a non-zero id, the AJAX handler succeeds exactly when the filter appends a block, and it sends that same block |
| `EnhancerProperties.AjaxIgnoresToggle` | includes/class-live-connect-modal-enhancer.php:142-165 | the AJAX handler does not consult the toggle: with it off, the filter adds nothing while the handler still sends the block |
| `SyncFindings.FirstSyncStoresSanitizedId` | includes/class-live-connect-event-sync.php:93 | with a sanitiser that turns tabs into spaces, the first sync of `"ext\t1"` leaves one post, carrying `"ext 1"` |
| `SyncFindings.RawLookupDuplicatesOnResync` | includes/class-live-connect-event-sync.php:71 | as written, syncing `"ext\t1"` twice leaves two posts: the second lookup compares `"ext\t1"`, which its trim leaves alone, with the stored `"ext 1"` |
| `SyncFindings.SanitizedLookupKeepsOnePost` | includes/class-live-connect-event-sync.php:71 | looking up the sanitised id, the same two syncs leave one post |
| `SyncFindings.SanitizedLookupKeepsPlatformIdsUnique` | includes/class-live-connect-event-sync.php:43-53 | with the event lookup given the stored id, platform ids stay unique for every batch whose stored ids have no trim character at either end |

## Left out

- The API client (`LiveConnect_API_Client::get_events`) is not part of this model. Its outcome is an input: either decoded events or an `ApiError`.
- Write failures are not modelled: `wp_insert_post` and `wp_update_post` always succeed. Called without `$wp_error`, they would return 0 on failure rather than a `WP_Error`, so the source's `is_wp_error` checks at event-sync lines 99 and 126 never fire. A failed venue insert would likewise be stored as venue 0.
- `EventSync.CreateEvent`: `wp_insert_post` refuses a post whose title, content and excerpt are all empty. A title that sanitises to `""` or `"0"` (both empty to PHP), with no description, is one such post. The host then returns 0, which is not a `WP_Error`, so the source (event-sync lines 97-106) writes a side-table row with `event_id` 0 and the event counts as synced. The model creates the post instead.
- `EventSync.GetOrCreateVenue`: likewise, a venue name that sanitises to `""` would make `wp_insert_post` return 0. The model creates a venue with an empty title instead, and the batch re-sync lemmas exclude such names.
- `EventSync.SyncEvents`: one `current_time` reading serves the whole batch. The source reads the clock once per event (event-sync line 166), so rows of one batch may differ in `last_sync`. Only that column is affected.
- Filters that WordPress runs on titles and content while saving them (`wp_filter_kses` for users without `unfiltered_html`, `sanitize_post`) are not modelled. Only the unslashing is.
- `EventSync.MetaRowFor`: the side-table key is written through `$wpdb->replace`, which does not unslash. The post's platform id is unslashed. The lemmas relating rows to posts assume the two agree (`RowKeyStable`).
- Debug logging of sync errors (event-sync line 47-49) writes only to the log.
- The inline JavaScript that `inject_modal_enhancer` prints (modal-enhancer lines 23-86), and the page-type checks around it, are browser-side presentation.
- The admin screens, the public assets, the bootstrap and the activator and deactivator are outside the two classes. The only thing taken from the activator is the unique key on `platform_event_id`.
- Concurrency between overlapping syncs is not modelled: each operation is one atomic step.
- Pagination is not modelled: only the page the API returns is synced.
- JSON encoding of the payload columns is taken to be lossless. `json_decode` of a row gives back the arrays the sync stored. A row whose JSON fails to decode is not modelled.
- Database collation is not modelled: once trimmed, a `meta_value` or title is compared by exact string equality. A dropped condition is the exception, as described above.
- `get_posts` order: "newest" is taken to be the highest post id rather than the latest `post_date`.
- Section headings and the "Listen on Spotify" text are translated constants; they are not part of the structured block.
- `EventSync.FormatDate`: the host's date parser is uninterpreted; the `Y-m-d H:i:s` formatting is folded into it.
- `SyncProperties.ResyncEventChangesOnlyTimestamp`: idempotence holds only up to `last_sync`, which the code rewrites on every sync, and up to the unmodelled row columns below.
- `HostStore.MetaRow` omits three side-table columns: the auto-increment `id`, `created_at` and `updated_at`. `store_event_metadata` does not pass them (event-sync lines 158-169), and the table fills them by default. `REPLACE` deletes the old row and inserts a new one, so every re-sync gives the row a new `id`, `created_at` and `updated_at`. The model keeps only their effect on table order: the replaced row moves to the end. `HostStore.ReplaceTimestampOnly`, `HostStore.ReplaceAllAgrees`, `HostStore.ReplayChangesOnlyTimestamps`, `SyncProperties.ResyncEventChangesOnlyTimestamp`, `BatchResync.BatchResyncChangesOnlyTimestamps` and `BatchResync.SanitizedBatchResyncChangesOnlyTimestamps` compare the modelled columns only.
- `HostStore.ReplaceTimestampOnly`: on the real table the re-written row also gets a new `id`, `created_at` and `updated_at` (see `HostStore.MetaRow`).
- `HostStore.ReplaceAllAgrees`: "differ only in `last_sync`" is about the modelled columns; the renewed `id`, `created_at` and `updated_at` are not compared.
- `HostStore.ReplayChangesOnlyTimestamps`: every row the replay replaces also gets a new `id`, `created_at` and `updated_at`, which are not compared.
- `BatchResync.SanitizedBatchResyncChangesOnlyTimestamps`: the same gap as `BatchResync.BatchResyncChangesOnlyTimestamps`, since it compares the modelled columns only.
- `SyncProperties.ResyncAddsNothing`: it states only that nothing is added. `BatchResync.BatchResyncChangesOnlyTimestamps` states the full comparison. With the lookup as written, it needs every id and venue name to be unchanged by sanitising and unslashing (see "Findings").
- `BatchResync.BatchResyncChangesOnlyTimestamps`: it compares only the modelled columns. On the real table, every row the second run replaces also gets a new `id`, `created_at` and `updated_at` (see `HostStore.MetaRow` above). It also needs every event and venue condition to be kept by the query. A dropped one (an id that is exactly `""`, a title that trims to `""`) makes the lookup match an unrelated post or venue, and the second run may then write to that one instead.
- `SyncProperties.SanitizedResyncAddsNothing`: even with the stored strings as keys, the query trims them. A stored id or sanitised name with a trim character at either end (possible when unslashing exposes one: `a \` keeps its space through sanitising and loses its backslash when unslashed) is not found again, so the lemma requires that none has one.
- `SyncFindings.SanitizedLookupKeepsPlatformIdsUnique`: for the same reason, it requires every stored id to have no trim character at either end.
- `SyncProperties.SyncPreservesUniquePlatformIds`: with the lookup as written, it needs every id to be unchanged by sanitising and unslashing.
- `SyncProperties.SyncDedupsVenues`: with the lookup as written, it needs every venue name, once unslashed, to equal the title stored for it.
- `EventSync.GetOrCreateVenue`: a venue named `"0"` gets id 0, because PHP's `empty()` treats `"0"` as empty.
- `ModalEnhancer.AjaxGetEnhancedContent`: the handler does not consult the enhancement toggle, so no toggle parameter is modelled (`EnhancerProperties.AjaxIgnoresToggle`).
- `ModalEnhancer.GetEnhancedEventData`: the row's JSON payloads are stored as decoded values, so decoding is the identity.

## Findings

| source | as written | input that shows it | evidently intended | confidence | as-written member | corrected member |
|---|---|---|---|---|---|---|
| includes/class-live-connect-event-sync.php:71 | The existing post is looked up by the raw upstream id (lines 71 and 143), but the id is stored sanitised, and WordPress unslashes it on saving (line 93). The query trims the raw id, which undoes a sanitiser's trimming but not its other changes. The venue lookup trims the raw name and then unslashes it; the titles it is compared with are stored sanitised and unslashed (lines 183 and 193). | An event with id `"ext\t1"`, synced twice into an empty store with a sanitiser that turns a tab into a space (as `sanitize_text_field` does), leaves two posts: the post carries `"ext 1"` and the second lookup compares `"ext\t1"`. | Look up the id as it is stored (sanitised, then unslashed), and the venue by its sanitised name, so that a re-sync updates the post instead of duplicating it. | medium, not executed | `SyncFindings.RawLookupDuplicatesOnResync` | `SyncProperties.SanitizedResyncAddsNothing` |

=== FILE: batch_resync.dfy ===
/** Re-syncing a whole page of events: the second run finds, for every
    event, the post and the venue the first run left for it, and rewrites
    each post with what it already holds. Only the side table's timestamps
    change. */
module BatchResync {
  import opened Wrappers
  import opened Php
  import opened Host
  import opened Upstream
  import opened HostStore
  import opened EventSync
  import opened SyncProperties

  /** The event's id and venue name are found again, and neither lookup
      has its condition dropped, which would let it match unrelated posts. */
  predicate ResyncStable(h: Primitives, mode: LookupKeys, e: Event) {
    && IdStable(h, mode, e)
    && VenueNameStable(h, mode, e)
    && (HasRequiredFields(e) && !Empty(VenueOf(e).name) ==> VenueKey(h, mode, VenueOf(e).name.value).Equals?)
  }

  /** The post a sync of `e` on `f` writes to, when the lookup finds one.
      Every post id of a valid store is positive, so 0 stands for "none" and
      names no event post. */
  function Target(h: Primitives, mode: LookupKeys, f: Store, e: Event): (p: nat)
    requires Valid(f) && HasRequiredFields(e)
    ensures p == 0 <==> GetEventByPlatformId(f, LookupKey(h, mode, e.id.value)).None?
    ensures p != 0 ==> p in f.events
  {
    GetEventByPlatformId(f, LookupKey(h, mode, e.id.value)).GetOr(0)
  }

  /** The venue a sync of `e` on `f` references. */
  function VenueFor(h: Primitives, mode: LookupKeys, f: Store, e: Event): nat
    requires Valid(f)
  {
    GetOrCreateVenue(h, mode, f, VenueOf(e)).id
  }

  /** The posts the valid events of `evs` write to, looked up in `f`. */
  function Targets(h: Primitives, mode: LookupKeys, f: Store, evs: seq<Event>): set<nat>
    requires Valid(f)
    decreases |evs|
  {
    if |evs| == 0 then {}
    else (if HasRequiredFields(evs[0]) then {Target(h, mode, f, evs[0])} else {}) + Targets(h, mode, f, evs[1..])
  }

  /** The side-table rows the valid events of `evs` write, in order, with
      their posts looked up in `f`. */
  function RowsFor(h: Primitives, mode: LookupKeys, f: Store, evs: seq<Event>): seq<MetaRow>
    requires Valid(f)
    decreases |evs|
  {
    if |evs| == 0 then []
    else (if HasRequiredFields(evs[0]) then [MetaRowFor(h, Target(h, mode, f, evs[0]), evs[0])] else [])
         + RowsFor(h, mode, f, evs[1..])
  }

  /** The post `e` targets in `f` already holds what a sync of `e` writes. */
  predicate Settled(h: Primitives, mode: LookupKeys, f: Store, e: Event)
    requires Valid(f) && HasRequiredFields(e)
  {
    && Target(h, mode, f, e) in f.events
    && WithEventFields(h, e, VenueFor(h, mode, f, e), f.events[Target(h, mode, f, e)])
       == f.events[Target(h, mode, f, e)]
  }

  /** Every event that is the last of `evs` to write its post is settled. */
  predicate LastWritesSettled(h: Primitives, mode: LookupKeys, f: Store, evs: seq<Event>)
    requires Valid(f)
  {
    forall i :: 0 <= i < |evs| && HasRequiredFields(evs[i]) && Target(h, mode, f, evs[i]) !in Targets(h, mode, f, evs[i + 1..])
      ==> Settled(h, mode, f, evs[i])
  }

  /** The lookup for a non-empty key keeps its answer across writes that only
      add posts it does not match. */
  lemma LookupUnchanged(s: Store, t: Store, key: Match)
    requires Valid(s) && Valid(t) && Extends(s, t) && EventExists(s, key)
    requires forall p :: p in t.events && p !in s.events ==> !IsSyncedEvent(t.events[p], key)
    ensures GetEventByPlatformId(t, key) == GetEventByPlatformId(s, key)
  {
    var a := GetEventByPlatformId(s, key).value;
    assert IsSyncedEvent(t.events[a], key);
    var b := GetEventByPlatformId(t, key).value;
    assert !(b < a);
    if b > a {
      assert b in s.events ==> IsSyncedEvent(s.events[b], key);
    }
  }

  /** The venue lookup for a non-empty title keeps its answer across writes
      that only add venues it does not match. */
  lemma VenueUnchanged(h: Primitives, mode: LookupKeys, s: Store, t: Store, v: Venue)
    requires Valid(s) && Valid(t) && Extends(s, t) && !Empty(v.name)
    requires VenueExists(s, VenueKey(h, mode, v.name.value))
    requires forall p :: p in t.venues && p !in s.venues ==> !IsVenueTitled(t.venues[p], VenueKey(h, mode, v.name.value))
    ensures GetOrCreateVenue(h, mode, t, v) == Placed(GetOrCreateVenue(h, mode, s, v).id, t)
  {
    var title := VenueKey(h, mode, v.name.value);
    var a := GetOrCreateVenue(h, mode, s, v).id;
    assert IsVenueTitled(t.venues[a], title);
    assert VenueExists(t, title);
    var b := GetOrCreateVenue(h, mode, t, v).id;
    assert !(b < a);
  }

  /** A sync of a stable event leaves the lookup of any other non-empty key
      that already finds a post as it was. */
  lemma SyncKeepsLookup(h: Primitives, mode: LookupKeys, s: Store, e: Event, key: Match)
    requires Valid(s) && IdStable(h, mode, e) && key.Equals? && EventExists(s, key)
    ensures GetEventByPlatformId(SyncSingleEvent(h, mode, s, e).store, key) == GetEventByPlatformId(s, key)
  {
    var t := SyncSingleEvent(h, mode, s, e).store;
    if HasRequiredFields(e) {
      var u := Upsert(h, mode, s, e);
      assert t == u.store;
      if !EventExists(s, LookupKey(h, mode, e.id.value)) {
        assert LookupKey(h, mode, e.id.value) != key;
        assert !IsSyncedEvent(t.events[u.id], key);
      }
    }
    LookupUnchanged(s, t, key);
  }

  lemma {:induction false} RunKeepsLookup(h: Primitives, mode: LookupKeys, s: Store, evs: seq<Event>, key: Match)
    requires Valid(s) && key.Equals? && EventExists(s, key)
    requires forall i :: 0 <= i < |evs| ==> IdStable(h, mode, evs[i])
    ensures GetEventByPlatformId(SyncEvents(h, mode, s, evs).store, key) == GetEventByPlatformId(s, key)
    decreases |evs|
  {
    if |evs| > 0 {
      var first := SyncSingleEvent(h, mode, s, evs[0]).store;
      SyncKeepsLookup(h, mode, s, evs[0], key);
      assert forall i :: 0 <= i < |evs[1..]| ==> evs[1..][i] == evs[i + 1];
      RunKeepsLookup(h, mode, first, evs[1..], key);
    }
  }

  /** Resolving a venue whose name is stable never creates a venue with a
      non-empty title that some venue already has. */
  lemma ResolutionMissesTitle(h: Primitives, mode: LookupKeys, s: Store, v: Venue, title: Match)
    requires Valid(s) && title.Equals? && VenueExists(s, title)
    requires !Empty(v.name) ==> Admits(VenueKey(h, mode, v.name.value), StoredText(h, v.name.value))
    ensures var t := GetOrCreateVenue(h, mode, s, v).store;
              forall p :: p in t.venues && p !in s.venues ==> !IsVenueTitled(t.venues[p], title)
  {
    var g := GetOrCreateVenue(h, mode, s, v);
    if !Empty(v.name) && !VenueExists(s, VenueKey(h, mode, v.name.value)) {
      assert g.store.venues.Keys == s.venues.Keys + {g.id};
      assert g.store.venues[g.id].title == StoredText(h, v.name.value) != title.value;
    }
  }

  /** The venue lookup for a title keeps its answer across writes that only
      add venues it does not match. */
  lemma VenueLookupUnchanged(s: Store, t: Store, title: Match)
    requires Valid(s) && Valid(t) && Extends(s, t) && VenueExists(s, title)
    requires forall p :: p in t.venues && p !in s.venues ==> !IsVenueTitled(t.venues[p], title)
    ensures GetVenueByTitle(t, title) == GetVenueByTitle(s, title)
  {
    var a := GetVenueByTitle(s, title).value;
    assert IsVenueTitled(t.venues[a], title);
    var b := GetVenueByTitle(t, title).value;
    assert !(b < a);
  }

  /** A sync of an event whose venue name is stable leaves the lookup of any
      non-empty title that some venue already has as it was. */
  lemma SyncKeepsVenue(h: Primitives, mode: LookupKeys, s: Store, e: Event, title: Match)
    requires Valid(s) && VenueNameStable(h, mode, e) && title.Equals? && VenueExists(s, title)
    ensures GetVenueByTitle(SyncSingleEvent(h, mode, s, e).store, title) == GetVenueByTitle(s, title)
  {
    var t := SyncSingleEvent(h, mode, s, e).store;
    if HasRequiredFields(e) {
      var g := GetOrCreateVenue(h, mode, s, VenueOf(e));
      assert t.venues == g.store.venues;
      ResolutionMissesTitle(h, mode, s, VenueOf(e), title);
    }
    VenueLookupUnchanged(s, t, title);
  }

  lemma {:induction false} RunKeepsVenue(h: Primitives, mode: LookupKeys, s: Store, evs: seq<Event>, title: Match)
    requires Valid(s) && title.Equals? && VenueExists(s, title)
    requires forall i :: 0 <= i < |evs| ==> VenueNameStable(h, mode, evs[i])
    ensures GetVenueByTitle(SyncEvents(h, mode, s, evs).store, title) == GetVenueByTitle(s, title)
    decreases |evs|
  {
    if |evs| > 0 {
      var first := SyncSingleEvent(h, mode, s, evs[0]).store;
      SyncKeepsVenue(h, mode, s, evs[0], title);
      assert forall i :: 0 <= i < |evs[1..]| ==> evs[1..][i] == evs[i + 1];
      RunKeepsVenue(h, mode, first, evs[1..], title);
    }
  }

  /** A named venue that already exists resolves to the newest venue with
      its title, and resolving it writes nothing. */
  lemma ResolvedIsNewest(h: Primitives, mode: LookupKeys, s: Store, v: Venue)
    requires Valid(s) && !Empty(v.name) && VenueExists(s, VenueKey(h, mode, v.name.value))
    ensures GetOrCreateVenue(h, mode, s, v) == Placed(GetVenueByTitle(s, VenueKey(h, mode, v.name.value)).value, s)
  {
  }

  /** After a stable event's upsert, its venue's title looks up the venue
      the post references. */
  lemma UpsertVenueIsNewest(h: Primitives, mode: LookupKeys, s: Store, e: Event)
    requires Valid(s) && HasRequiredFields(e) && VenueNameStable(h, mode, e) && !Empty(VenueOf(e).name)
    ensures var u := Upsert(h, mode, s, e);
              GetVenueByTitle(u.store, VenueKey(h, mode, VenueOf(e).name.value)) == Some(u.store.events[u.id].venueId)
  {
    var u := Upsert(h, mode, s, e);
    var title := VenueKey(h, mode, VenueOf(e).name.value);
    UpsertVenueIsFound(h, mode, s, e);
    var w := u.store.events[u.id].venueId;
    assert w in u.store.venues && IsVenueTitled(u.store.venues[w], title);
    assert VenueExists(u.store, title);
    var q := GetVenueByTitle(u.store, title).value;
    assert !(q < w) && !(q > w);
  }

  /** After a stable event's sync, the rest of a stable batch leaves its
      lookup on the post it wrote. */
  lemma FirstPostStays(h: Primitives, mode: LookupKeys, s: Store, e: Event, rest: seq<Event>)
    requires Valid(s) && HasRequiredFields(e) && IdStable(h, mode, e)
    requires forall i :: 0 <= i < |rest| ==> ResyncStable(h, mode, rest[i])
    ensures var r := SyncSingleEvent(h, mode, s, e);
              Target(h, mode, SyncEvents(h, mode, r.store, rest).store, e) == r.result.value
  {
    var t := SyncSingleEvent(h, mode, s, e).store;
    var key := LookupKey(h, mode, e.id.value);
    SyncedPostIsNewest(h, mode, s, e);
    RunKeepsLookup(h, mode, t, rest, key);
  }

  /** After a stable event's sync, the rest of a stable batch leaves its
      venue lookup on the venue it used. */
  lemma FirstVenueStays(h: Primitives, mode: LookupKeys, s: Store, e: Event, rest: seq<Event>)
    requires Valid(s) && HasRequiredFields(e) && ResyncStable(h, mode, e)
    requires forall i :: 0 <= i < |rest| ==> ResyncStable(h, mode, rest[i])
    ensures var r := SyncSingleEvent(h, mode, s, e);
              VenueFor(h, mode, SyncEvents(h, mode, r.store, rest).store, e) == r.store.events[r.result.value].venueId
  {
    var u := Upsert(h, mode, s, e);
    var t := u.store;
    var f := SyncEvents(h, mode, t, rest).store;
    var v := VenueOf(e);
    if !Empty(v.name) {
      var title := VenueKey(h, mode, v.name.value);
      UpsertVenueIsNewest(h, mode, s, e);
      RunKeepsVenue(h, mode, t, rest, title);
      ResolvedIsNewest(h, mode, f, v);
    }
  }

  /** After a stable event's sync, the rest of a stable batch leaves its
      lookup on the post it wrote and its venue lookup on the venue it used. */
  lemma FirstWriteStays(h: Primitives, mode: LookupKeys, s: Store, e: Event, rest: seq<Event>)
    requires Valid(s) && HasRequiredFields(e) && ResyncStable(h, mode, e)
    requires forall i :: 0 <= i < |rest| ==> ResyncStable(h, mode, rest[i])
    ensures var r := SyncSingleEvent(h, mode, s, e);
            var f := SyncEvents(h, mode, r.store, rest).store;
              && Target(h, mode, f, e) == r.result.value
              && VenueFor(h, mode, f, e) == r.store.events[r.result.value].venueId
  {
    FirstPostStays(h, mode, s, e, rest);
    FirstVenueStays(h, mode, s, e, rest);
  }

  /** How `Targets` splits off a batch's first event. */
  lemma TargetsHead(h: Primitives, mode: LookupKeys, f: Store, evs: seq<Event>)
    requires Valid(f) && |evs| > 0
    ensures HasRequiredFields(evs[0]) ==> Targets(h, mode, f, evs) == {Target(h, mode, f, evs[0])} + Targets(h, mode, f, evs[1..])
    ensures !HasRequiredFields(evs[0]) ==> Targets(h, mode, f, evs) == Targets(h, mode, f, evs[1..])
  {
  }

  /** How `RowsFor` splits off a batch's first event. */
  lemma RowsHead(h: Primitives, mode: LookupKeys, f: Store, evs: seq<Event>)
    requires Valid(f) && |evs| > 0
    ensures HasRequiredFields(evs[0]) ==>
              && RowsFor(h, mode, f, evs) == [MetaRowFor(h, Target(h, mode, f, evs[0]), evs[0])] + RowsFor(h, mode, f, evs[1..])
              && RowsFor(h, mode, f, evs)[1..] == RowsFor(h, mode, f, evs[1..])
    ensures !HasRequiredFields(evs[0]) ==> RowsFor(h, mode, f, evs) == RowsFor(h, mode, f, evs[1..])
  {
  }

  /** How `LastWritesSettled` splits off a batch's first event. */
  lemma SettledHead(h: Primitives, mode: LookupKeys, f: Store, evs: seq<Event>)
    requires Valid(f) && |evs| > 0
    ensures LastWritesSettled(h, mode, f, evs) <==>
              && LastWritesSettled(h, mode, f, evs[1..])
              && (HasRequiredFields(evs[0]) && Target(h, mode, f, evs[0]) !in Targets(h, mode, f, evs[1..]) ==> Settled(h, mode, f, evs[0]))
  {
    var rest := evs[1..];
    assert evs[0 + 1..] == rest;
    if LastWritesSettled(h, mode, f, evs) {
      forall j | 0 <= j < |rest| && HasRequiredFields(rest[j]) && Target(h, mode, f, rest[j]) !in Targets(h, mode, f, rest[j + 1..])
        ensures Settled(h, mode, f, rest[j])
      {
        assert rest[j] == evs[j + 1] && rest[j + 1..] == evs[(j + 1) + 1..];
      }
    }
    if LastWritesSettled(h, mode, f, rest)
       && (HasRequiredFields(evs[0]) && Target(h, mode, f, evs[0]) !in Targets(h, mode, f, rest) ==> Settled(h, mode, f, evs[0]))
    {
      forall i | 0 <= i < |evs| && HasRequiredFields(evs[i]) && Target(h, mode, f, evs[i]) !in Targets(h, mode, f, evs[i + 1..])
        ensures Settled(h, mode, f, evs[i])
      {
        if i > 0 {
          assert evs[i] == rest[i - 1] && evs[i + 1..] == rest[(i - 1) + 1..];
        }
      }
    }
  }

  /** The first run's table is the old table with the batch's rows, each
      under the post it targets at the end, replaced in turn. */
  lemma {:induction false} FirstRunTable(h: Primitives, mode: LookupKeys, s: Store, evs: seq<Event>)
    requires Valid(s)
    requires forall i :: 0 <= i < |evs| ==> ResyncStable(h, mode, evs[i])
    ensures var f := SyncEvents(h, mode, s, evs).store;
              f.meta == ReplaceAll(s.meta, RowsFor(h, mode, f, evs))
    decreases |evs|
  {
    if |evs| > 0 {
      var e, rest := evs[0], evs[1..];
      var t := SyncSingleEvent(h, mode, s, e).store;
      var f := SyncEvents(h, mode, s, evs).store;
      assert f == SyncEvents(h, mode, t, rest).store;
      assert forall i :: 0 <= i < |rest| ==> rest[i] == evs[i + 1];
      FirstRunTable(h, mode, t, rest);
      RowsHead(h, mode, f, evs);
      if HasRequiredFields(e) {
        FirstWriteStays(h, mode, s, e, rest);
      }
    }
  }

  /** A post no event of the first run targets keeps its fields. */
  lemma {:induction false} FirstRunUntouched(h: Primitives, mode: LookupKeys, s: Store, evs: seq<Event>)
    requires Valid(s)
    requires forall i :: 0 <= i < |evs| ==> ResyncStable(h, mode, evs[i])
    ensures var f := SyncEvents(h, mode, s, evs).store;
              forall p :: p in s.events && p !in Targets(h, mode, f, evs) ==> f.events[p] == s.events[p]
    decreases |evs|
  {
    if |evs| > 0 {
      var e, rest := evs[0], evs[1..];
      var t := SyncSingleEvent(h, mode, s, e).store;
      var f := SyncEvents(h, mode, s, evs).store;
      assert f == SyncEvents(h, mode, t, rest).store;
      assert forall i :: 0 <= i < |rest| ==> rest[i] == evs[i + 1];
      FirstRunUntouched(h, mode, t, rest);
      TargetsHead(h, mode, f, evs);
      if HasRequiredFields(e) {
        FirstWriteStays(h, mode, s, e, rest);
      }
    }
  }

  /** The last event of the first run to write a post has settled it. */
  lemma {:induction false} FirstRunSettles(h: Primitives, mode: LookupKeys, s: Store, evs: seq<Event>)
    requires Valid(s)
    requires forall i :: 0 <= i < |evs| ==> ResyncStable(h, mode, evs[i])
    ensures LastWritesSettled(h, mode, SyncEvents(h, mode, s, evs).store, evs)
    decreases |evs|
  {
    if |evs| > 0 {
      var e, rest := evs[0], evs[1..];
      var r := SyncSingleEvent(h, mode, s, e);
      var t := r.store;
      var f := SyncEvents(h, mode, s, evs).store;
      assert f == SyncEvents(h, mode, t, rest).store;
      assert forall i :: 0 <= i < |rest| ==> rest[i] == evs[i + 1];
      FirstRunSettles(h, mode, t, rest);
      TargetsHead(h, mode, f, evs);
      SettledHead(h, mode, f, evs);
      if HasRequiredFields(e) {
        FirstWriteStays(h, mode, s, e, rest);
        var p := r.result.value;
        if p !in Targets(h, mode, f, rest) {
          FirstRunUntouched(h, mode, t, rest);
          assert f.events[p] == t.events[p];
        }
      }
    }
  }

  /** `t` has the same posts and venues as `f`, with the same statuses and
      platform ids; only event posts' fields and the table may differ. */
  predicate SameShape(t: Store, f: Store) {
    && t.venues == f.venues && t.nextId == f.nextId && t.events.Keys == f.events.Keys
    && forall p :: p in t.events ==>
         t.events[p].status == f.events[p].status && t.events[p].platformId == f.events[p].platformId
  }

  /** On a store shaped like `f`, a covered event's lookups give what they
      give in `f`, and resolving its venue writes nothing. */
  lemma LookupsSameShape(h: Primitives, mode: LookupKeys, t: Store, f: Store, e: Event)
    requires Valid(t) && Valid(f) && SameShape(t, f) && HasRequiredFields(e) && Covered(h, mode, f, e)
    ensures GetEventByPlatformId(t, LookupKey(h, mode, e.id.value)) == Some(Target(h, mode, f, e))
    ensures GetOrCreateVenue(h, mode, t, VenueOf(e)) == Placed(VenueFor(h, mode, f, e), t)
  {
    var key := LookupKey(h, mode, e.id.value);
    var k :| k in f.events && IsSyncedEvent(f.events[k], key);
    assert IsSyncedEvent(t.events[k], key);
    LookupUnchanged(t, f, key);
    var v := VenueOf(e);
    if !Empty(v.name) {
      var title := VenueKey(h, mode, v.name.value);
      var w :| w in f.venues && IsVenueTitled(f.venues[w], title);
      assert VenueExists(t, title);
      VenueUnchanged(h, mode, t, f, v);
    }
  }

  /** On a store shaped like `f`, an event `f` covers updates the post it
      targets in `f`, with the venue it resolves in `f`, and writes nothing
      else but its row. */
  lemma RerunStep(h: Primitives, mode: LookupKeys, t: Store, f: Store, e: Event)
    requires Valid(t) && Valid(f) && SameShape(t, f) && HasRequiredFields(e) && Covered(h, mode, f, e)
    ensures var r := SyncSingleEvent(h, mode, t, e);
            var p := Target(h, mode, f, e);
              && r.result == Ok(p) && p in t.events
              && r.store.events == t.events[p := WithEventFields(h, e, VenueFor(h, mode, f, e), t.events[p])]
              && r.store.venues == t.venues && r.store.nextId == t.nextId
              && r.store.meta == Replace(t.meta, MetaRowFor(h, p, e))
  {
    LookupsSameShape(h, mode, t, f, e);
    var p := Target(h, mode, f, e);
    var u := Upsert(h, mode, t, e);
    var post := WithEventFields(h, e, VenueFor(h, mode, f, e), t.events[p]);
    assert u.store.events[p] == post;
    assert u.store.events == t.events[p := post];
  }

  /** The fields a sync writes over a post replace all but its status and
      platform id. */
  lemma WithEventFieldsKeepsOnlyIdentity(h: Primitives, e: Event, venueId: nat, p: EventPost, q: EventPost)
    requires e.title.Some? && p.status == q.status && p.platformId == q.platformId
    ensures WithEventFields(h, e, venueId, p) == WithEventFields(h, e, venueId, q)
  {
  }

  /** Overwriting post `p` keeps a store's posts in agreement with `f`'s
      outside `others`, when the new post is `f`'s wherever `p` is not in
      `others`. */
  lemma OverwriteAgrees(tev: map<nat, EventPost>, fev: map<nat, EventPost>, p: nat, post: EventPost, others: set<nat>)
    requires forall q :: q in fev && q != p && q !in others ==> q in tev && tev[q] == fev[q]
    requires p in fev && p !in others ==> post == fev[p]
    ensures forall q :: q in fev && q !in others ==> tev[p := post][q] == fev[q]
  {
  }

  /** What a re-run needs of `f` and the batch carries over to the rest of
      the batch. */
  lemma TailReady(h: Primitives, mode: LookupKeys, f: Store, evs: seq<Event>)
    requires Valid(f) && |evs| > 0
    requires forall i :: 0 <= i < |evs| ==> Covered(h, mode, f, evs[i])
    requires LastWritesSettled(h, mode, f, evs)
    ensures forall i :: 0 <= i < |evs[1..]| ==> Covered(h, mode, f, evs[1..][i])
    ensures LastWritesSettled(h, mode, f, evs[1..])
  {
    assert forall i :: 0 <= i < |evs[1..]| ==> evs[1..][i] == evs[i + 1];
    SettledHead(h, mode, f, evs);
  }

  /** The post the first event rewrites agrees with `f` whenever no later
      event targets it, and so does every post no event targets. */
  lemma StepUntouched(h: Primitives, mode: LookupKeys, t: Store, f: Store, evs: seq<Event>)
    requires Valid(t) && Valid(f) && SameShape(t, f) && |evs| > 0 && HasRequiredFields(evs[0])
    requires Target(h, mode, f, evs[0]) in f.events
    requires LastWritesSettled(h, mode, f, evs)
    requires forall p :: p in f.events && p !in Targets(h, mode, f, evs) ==> t.events[p] == f.events[p]
    ensures var p := Target(h, mode, f, evs[0]);
            var post := WithEventFields(h, evs[0], VenueFor(h, mode, f, evs[0]), t.events[p]);
              forall q :: q in f.events && q !in Targets(h, mode, f, evs[1..]) ==> t.events[p := post][q] == f.events[q]
  {
    var e, rest := evs[0], evs[1..];
    TargetsHead(h, mode, f, evs);
    SettledHead(h, mode, f, evs);
    var p := Target(h, mode, f, e);
    var v := VenueFor(h, mode, f, e);
    if p !in Targets(h, mode, f, rest) {
      WithEventFieldsKeepsOnlyIdentity(h, e, v, t.events[p], f.events[p]);
    }
    OverwriteAgrees(t.events, f.events, p, WithEventFields(h, e, v, t.events[p]), Targets(h, mode, f, rest));
  }

  /** One step of a re-run leaves the re-run ready for the rest of the
      batch: the store is still shaped like `f`, and every post the rest does
      not target is as in `f`. */
  lemma RerunPostsStep(h: Primitives, mode: LookupKeys, t: Store, f: Store, evs: seq<Event>)
    requires Valid(t) && Valid(f) && SameShape(t, f) && |evs| > 0
    requires forall i :: 0 <= i < |evs| ==> Covered(h, mode, f, evs[i])
    requires LastWritesSettled(h, mode, f, evs)
    requires forall p :: p in f.events && p !in Targets(h, mode, f, evs) ==> t.events[p] == f.events[p]
    ensures var t1 := SyncSingleEvent(h, mode, t, evs[0]).store;
            var rest := evs[1..];
              && Valid(t1) && SameShape(t1, f)
              && (forall i :: 0 <= i < |rest| ==> Covered(h, mode, f, rest[i]))
              && LastWritesSettled(h, mode, f, rest)
              && (forall p :: p in f.events && p !in Targets(h, mode, f, rest) ==> t1.events[p] == f.events[p])
  {
    var e := evs[0];
    RerunShape(h, mode, t, f, e);
    TailReady(h, mode, f, evs);
    if HasRequiredFields(e) {
      RerunStep(h, mode, t, f, e);
      StepUntouched(h, mode, t, f, evs);
    } else {
      TargetsHead(h, mode, f, evs);
    }
  }

  /** One step of a re-run keeps the store shaped like `f` and replaces the
      event's row. */
  lemma RerunShape(h: Primitives, mode: LookupKeys, t: Store, f: Store, e: Event)
    requires Valid(t) && Valid(f) && SameShape(t, f) && Covered(h, mode, f, e)
    ensures var t1 := SyncSingleEvent(h, mode, t, e).store;
              && SameShape(t1, f)
              && (HasRequiredFields(e) ==> t1.meta == Replace(t.meta, MetaRowFor(h, Target(h, mode, f, e), e)))
              && (!HasRequiredFields(e) ==> t1 == t)
  {
    if HasRequiredFields(e) {
      RerunStep(h, mode, t, f, e);
    }
  }

  /** Re-running a batch `f` covers, on a store shaped like `f`, writes the
      batch's rows with the posts they target in `f`. */
  lemma {:induction false} RerunTable(h: Primitives, mode: LookupKeys, t: Store, f: Store, evs: seq<Event>)
    requires Valid(t) && Valid(f) && SameShape(t, f)
    requires forall i :: 0 <= i < |evs| ==> Covered(h, mode, f, evs[i])
    ensures SyncEvents(h, mode, t, evs).store.meta == ReplaceAll(t.meta, RowsFor(h, mode, f, evs))
    decreases |evs|
  {
    if |evs| > 0 {
      var e, rest := evs[0], evs[1..];
      var t1 := SyncSingleEvent(h, mode, t, e).store;
      assert SyncEvents(h, mode, t, evs).store == SyncEvents(h, mode, t1, rest).store;
      assert forall i :: 0 <= i < |rest| ==> rest[i] == evs[i + 1];
      RerunShape(h, mode, t, f, e);
      RowsHead(h, mode, f, evs);
      RerunTable(h, mode, t1, f, rest);
    }
  }

  /** Re-running a batch `f` covers, on a store shaped like `f` whose
      untargeted posts are as in `f`, ends with `f`'s posts and venues. */
  lemma {:induction false} RerunPosts(h: Primitives, mode: LookupKeys, t: Store, f: Store, evs: seq<Event>)
    requires Valid(t) && Valid(f) && SameShape(t, f)
    requires forall i :: 0 <= i < |evs| ==> Covered(h, mode, f, evs[i])
    requires LastWritesSettled(h, mode, f, evs)
    requires forall p :: p in f.events && p !in Targets(h, mode, f, evs) ==> t.events[p] == f.events[p]
    ensures var r := SyncEvents(h, mode, t, evs).store;
              r.events == f.events && r.venues == f.venues && r.nextId == f.nextId
    decreases |evs|
  {
    if |evs| == 0 {
      assert t.events == f.events;
    } else {
      var t1 := SyncSingleEvent(h, mode, t, evs[0]).store;
      assert SyncEvents(h, mode, t, evs).store == SyncEvents(h, mode, t1, evs[1..]).store;
      RerunPostsStep(h, mode, t, f, evs);
      RerunPosts(h, mode, t1, f, evs[1..]);
    }
  }

  /** The clock does not take part in any lookup; it only stamps the rows. */
  lemma {:induction false} TargetsIgnoreNow(h: Primitives, mode: LookupKeys, f: Store, evs: seq<Event>, later: string)
    requires Valid(f)
    ensures Targets(h.(now := later), mode, f, evs) == Targets(h, mode, f, evs)
    ensures SameUpToStamp(RowsFor(h.(now := later), mode, f, evs), RowsFor(h, mode, f, evs))
    decreases |evs|
  {
    if |evs| > 0 {
      var h2 := h.(now := later);
      TargetsIgnoreNow(h, mode, f, evs[1..], later);
      TargetsHead(h, mode, f, evs);
      TargetsHead(h2, mode, f, evs);
      RowsHead(h, mode, f, evs);
      RowsHead(h2, mode, f, evs);
      var head2 := if HasRequiredFields(evs[0]) then [MetaRowFor(h2, Target(h2, mode, f, evs[0]), evs[0])] else [];
      var head := if HasRequiredFields(evs[0]) then [MetaRowFor(h, Target(h, mode, f, evs[0]), evs[0])] else [];
      assert SameUpToStamp(head2, head);
      SameUpToStampAppend(head2, head, RowsFor(h2, mode, f, evs[1..]), RowsFor(h, mode, f, evs[1..]));
    }
  }

  lemma EventIgnoresNow(h: Primitives, mode: LookupKeys, f: Store, e: Event, later: string)
    requires Valid(f)
    ensures Covered(h.(now := later), mode, f, e) == Covered(h, mode, f, e)
    ensures HasRequiredFields(e) ==>
              && Target(h.(now := later), mode, f, e) == Target(h, mode, f, e)
              && (Settled(h.(now := later), mode, f, e) <==> Settled(h, mode, f, e))
  {
    var h2 := h.(now := later);
    if HasRequiredFields(e) {
      assert LookupKey(h2, mode, e.id.value) == LookupKey(h, mode, e.id.value);
      VenueForIgnoresNow(h, mode, f, VenueOf(e), later);
      var p := Target(h, mode, f, e);
      if p in f.events {
        WithEventFieldsIgnoresNow(h, e, VenueFor(h, mode, f, e), f.events[p], later);
      }
    }
    if !Empty(VenueOf(e).name) {
      assert VenueKey(h2, mode, VenueOf(e).name.value) == VenueKey(h, mode, VenueOf(e).name.value);
    }
  }

  lemma WithEventFieldsIgnoresNow(h: Primitives, e: Event, venueId: nat, p: EventPost, later: string)
    requires e.title.Some?
    ensures WithEventFields(h.(now := later), e, venueId, p) == WithEventFields(h, e, venueId, p)
  {
  }

  lemma VenueForIgnoresNow(h: Primitives, mode: LookupKeys, f: Store, v: Venue, later: string)
    requires Valid(f)
    ensures GetOrCreateVenue(h.(now := later), mode, f, v).id == GetOrCreateVenue(h, mode, f, v).id
  {
    var a := GetOrCreateVenue(h.(now := later), mode, f, v).id;
    var b := GetOrCreateVenue(h, mode, f, v).id;
    if !Empty(v.name) {
      var title := VenueKey(h, mode, v.name.value);
      assert VenueKey(h.(now := later), mode, v.name.value) == title;
      if VenueExists(f, title) {
        assert !(a < b) && !(b < a);
      }
    }
  }

  lemma SettledIgnoresNow(h: Primitives, mode: LookupKeys, f: Store, evs: seq<Event>, later: string)
    requires Valid(f)
    requires forall i :: 0 <= i < |evs| ==> Covered(h, mode, f, evs[i])
    requires LastWritesSettled(h, mode, f, evs)
    ensures forall i :: 0 <= i < |evs| ==> Covered(h.(now := later), mode, f, evs[i])
    ensures LastWritesSettled(h.(now := later), mode, f, evs)
  {
    forall i | 0 <= i < |evs|
      ensures Covered(h.(now := later), mode, f, evs[i])
      ensures HasRequiredFields(evs[i]) ==>
                && Target(h.(now := later), mode, f, evs[i]) == Target(h, mode, f, evs[i])
                && (Settled(h.(now := later), mode, f, evs[i]) <==> Settled(h, mode, f, evs[i]))
      ensures Targets(h.(now := later), mode, f, evs[i + 1..]) == Targets(h, mode, f, evs[i + 1..])
    {
      EventIgnoresNow(h, mode, f, evs[i], later);
      TargetsIgnoreNow(h, mode, f, evs[i + 1..], later);
    }
  }

  /** Idempotence of a whole page: syncing the same batch of stable events a
      second time, at any later time, reports the same counts, leaves every
      event post, every venue and the post-id counter exactly as the first
      run left them, and leaves the side table unchanged up to the rows'
      `last_sync`, among the modelled columns. */
  lemma BatchResyncChangesOnlyTimestamps(h: Primitives, mode: LookupKeys, s: Store, evs: seq<Event>, later: string)
    requires Valid(s)
    requires forall i :: 0 <= i < |evs| ==> ResyncStable(h, mode, evs[i])
    ensures var once := SyncEvents(h, mode, s, evs);
            var twice := SyncEvents(h.(now := later), mode, once.store, evs);
              && twice.counts == once.counts
              && twice.store.events == once.store.events
              && twice.store.venues == once.store.venues
              && twice.store.nextId == once.store.nextId
              && SameUpToStamp(twice.store.meta, once.store.meta)
  {
    var h2 := h.(now := later);
    var f := SyncEvents(h, mode, s, evs).store;
    FirstRunTable(h, mode, s, evs);
    FirstRunSettles(h, mode, s, evs);
    SyncEventsCovers(h, mode, s, evs);
    SettledIgnoresNow(h, mode, f, evs, later);
    RerunPosts(h2, mode, f, f, evs);
    RerunTable(h2, mode, f, f, evs);
    TargetsIgnoreNow(h, mode, f, evs, later);
    ReplayChangesOnlyTimestamps(s.meta, RowsFor(h, mode, f, evs), RowsFor(h2, mode, f, evs));
  }

  /** With the lookups given the stored strings, what needs excluding is a
      stored id or sanitised venue name that is empty or that the queries'
      trim would change. */
  lemma SanitizedBatchResyncChangesOnlyTimestamps(h: Primitives, s: Store, evs: seq<Event>, later: string)
    requires Valid(s)
    requires forall i :: 0 <= i < |evs| ==> StoredIdTrimmed(h, evs[i]) && SanitizedNameTrimmed(h, evs[i])
    requires forall i :: 0 <= i < |evs| && HasRequiredFields(evs[i]) ==>
               && StoredText(h, evs[i].id.value) != ""
               && (!Empty(VenueOf(evs[i]).name) ==> h.sanitizeText(VenueOf(evs[i]).name.value) != "")
    ensures var once := SyncEvents(h, SanitizedLookup, s, evs);
            var twice := SyncEvents(h.(now := later), SanitizedLookup, once.store, evs);
              && twice.counts == once.counts
              && twice.store.events == once.store.events
              && twice.store.venues == once.store.venues
              && twice.store.nextId == once.store.nextId
              && SameUpToStamp(twice.store.meta, once.store.meta)
  {
    forall i | 0 <= i < |evs| ensures ResyncStable(h, SanitizedLookup, evs[i]) {
      SanitizedLookupIsStable(h, evs[i]);
    }
    BatchResyncChangesOnlyTimestamps(h, SanitizedLookup, s, evs, later);
  }
}

=== FILE: enhancer_properties.dfy ===
/** Properties of the enhanced-content assembly that relate its operations:
    media rendering is a filter-map over the entries, and the AJAX handler
    sends exactly the block the content filter appends. */
module EnhancerProperties {
  import opened Wrappers
  import opened Php
  import opened Host
  import opened Upstream
  import opened HostStore
  import opened ModalEnhancer

  /** Media rendering distributes over concatenation: the items of two runs
      of entries are the items of the first run followed by those of the
      second, so the rendered order is the input order. */
  lemma {:induction false} MediaItemsAppend(esc: Escapers, a: seq<Media>, b: seq<Media>)
    ensures MediaItems(esc, a + b) == MediaItems(esc, a) + MediaItems(esc, b)
    decreases |a|
  {
    if |a| > 0 {
      assert (a + b)[1..] == a[1..] + b;
      MediaItemsAppend(esc, a[1..], b);
    } else {
      assert a + b == b;
    }
  }

  /** A single entry renders to its own item, or to nothing when its type is
      neither `image` nor `video`. */
  lemma MediaItemsSingle(esc: Escapers, m: Media)
    ensures MediaItems(esc, [m]) == match MediaItemOf(esc, m) case Some(x) => [x] case None => []
  {
    assert [m][1..] == [];
  }

  /** Entries of other types render nothing at all. */
  lemma {:induction false} UnknownMediaRendersNothing(esc: Escapers, media: seq<Media>)
    requires forall i :: 0 <= i < |media| ==> media[i].kind != Some("image") && media[i].kind != Some("video")
    ensures MediaItems(esc, media) == []
    decreases |media|
  {
    if |media| > 0 {
      UnknownMediaRendersNothing(esc, media[1..]);
    }
  }

  /** The AJAX handler and the content filter agree: for a valid nonce and a
      non-zero post id with the toggle on, the handler succeeds exactly when
      the filter appends a block, and it sends that very block. */
  lemma AjaxAgreesWithModal(option: Option<string>, meta: seq<MetaRow>, esc: Escapers,
                            content: seq<Piece>, postedEventId: int)
    requires ShouldEnhanceModals(option) && postedEventId != 0
    ensures var reply := AjaxGetEnhancedContent(true, postedEventId, meta, esc);
            var shown := EnhanceEventModal(option, meta, esc, content, Absint(postedEventId));
              && (reply.JsonSuccess? <==> shown != content)
              && (reply.JsonSuccess? ==> shown == content + [Enhanced(reply.html)])
  {
    var reply := AjaxGetEnhancedContent(true, postedEventId, meta, esc);
    var shown := EnhanceEventModal(option, meta, esc, content, Absint(postedEventId));
    if reply.JsonSuccess? {
      assert |shown| == |content| + 1;
      assert shown == shown[..|content|] + [shown[|content|]];
    }
  }

  /** The AJAX handler never consults the enhancement toggle: with the toggle
      off the filter adds nothing while the handler still sends the block. */
  lemma AjaxIgnoresToggle(meta: seq<MetaRow>, esc: Escapers, content: seq<Piece>, postedEventId: int)
    requires postedEventId != 0
    requires exists i :: 0 <= i < |meta| && meta[i].eventId == Absint(postedEventId)
    ensures EnhanceEventModal(Some("disabled"), meta, esc, content, Absint(postedEventId)) == content
    ensures AjaxGetEnhancedContent(true, postedEventId, meta, esc).JsonSuccess?
  {
  }
}

=== FILE: event_sync.dfy ===
/** `LiveConnect_Event_Sync`: reconciles one page of upstream events with the
    host's `tribe_events` posts, keyed by the platform's event id, resolving
    venues by title and writing one side-table row per event. Every operation
    is a pure transformer of the host store. */
module EventSync {
  import opened Wrappers
  import opened Php
  import opened Host
  import opened Upstream
  import opened HostStore

  /** Which string the "does it already exist" queries are given.
      `RawLookup` is the plugin as written: the raw upstream id (or venue
      name) is looked up although its sanitised form is what gets stored.
      `SanitizedLookup` passes what the host stores: the stored platform id,
      and the sanitised venue name, which the title query unslashes itself. */
  datatype LookupKeys = RawLookup | SanitizedLookup

  /** A string condition of a `get_posts` query: dropped from the query, or
      an exact comparison with `value`. */
  datatype Match = AnyValue | Equals(value: string)

  predicate Admits(q: Match, v: string) {
    q.AnyValue? || q.value == v
  }

  /** A sanitised string as the host stores it in a post field or post meta:
      `wp_insert_post` and `update_post_meta` unslash what they are given. */
  function StoredText(h: Primitives, raw: string): string {
    h.unslash(h.sanitizeText(raw))
  }

  /** A `meta_value` query var: the meta query keeps it only when it is not
      the empty string, and then compares its trim, without unslashing. */
  function MetaValueQuery(v: string): (r: Match)
    ensures r.AnyValue? <==> v == ""
    ensures r.Equals? ==> r.value == Trim(v)
  {
    if v == "" then AnyValue else Equals(Trim(v))
  }

  /** A `title` query var: `WP_Query` trims it, drops it when that leaves the
      empty string, and otherwise compares the stripslashed trim. */
  function TitleQuery(h: Primitives, title: string): (r: Match)
    ensures r.AnyValue? <==> Trim(title) == ""
    ensures r.Equals? ==> r.value == h.unslash(Trim(title))
  {
    var t := Trim(title);
    if t == "" then AnyValue else Equals(h.unslash(t))
  }

  /** Whitespace around a non-empty `meta_value` does not change what the
      meta query compares, and neither does trimming the value beforehand
      unless that leaves nothing. */
  lemma MetaValueIgnoresPadding(pre: string, v: string, post: string)
    requires AllTrimChars(pre) && AllTrimChars(post) && v != ""
    ensures MetaValueQuery(pre + v + post) == MetaValueQuery(v)
    ensures Trim(v) != "" ==> MetaValueQuery(Trim(v)) == MetaValueQuery(v)
  {
    TrimIgnoresPadding(pre, v, post);
    TrimIdempotent(v);
  }

  /** Whitespace around a title does not change what the title query
      compares, nor whether it is dropped; a title trimmed beforehand, as
      `sanitize_text_field` leaves it, gives the same condition. */
  lemma TitleIgnoresPadding(h: Primitives, pre: string, t: string, post: string)
    requires AllTrimChars(pre) && AllTrimChars(post)
    ensures TitleQuery(h, pre + t + post) == TitleQuery(h, t)
    ensures TitleQuery(h, Trim(t)) == TitleQuery(h, t)
  {
    TrimIgnoresPadding(pre, t, post);
    TrimIdempotent(t);
  }

  /** The condition the event lookup puts on `_live_connect_platform_id`. */
  function LookupKey(h: Primitives, mode: LookupKeys, raw: string): Match {
    MetaValueQuery(if mode.RawLookup? then raw else StoredText(h, raw))
  }

  /** The condition the venue lookup puts on the title. */
  function VenueKey(h: Primitives, mode: LookupKeys, name: string): Match {
    TitleQuery(h, if mode.RawLookup? then name else h.sanitizeText(name))
  }

  /** `missing_tec`, or the API client's error returned unchanged. */
  datatype SyncError = MissingCalendar | FetchError(api: ApiError)

  /** `invalid_event_data`. */
  datatype EventError = InvalidEventData

  datatype Counts = Counts(synced: nat, errors: nat)

  /** A post id (or venue id) together with the store after the writes. */
  datatype Placed = Placed(id: nat, store: Store)

  datatype EventOutcome = EventOutcome(result: Result<nat, EventError>, store: Store)

  datatype BatchOutcome = BatchOutcome(counts: Counts, store: Store)

  datatype SyncOutcome = SyncOutcome(result: Result<Counts, SyncError>, store: Store)

  /** A post the event lookup matches: published, carrying a platform id the
      condition admits. A dropped condition admits every post that has a
      platform id at all. */
  predicate IsSyncedEvent(p: EventPost, key: Match) {
    p.status == Publish && p.platformId.Some? && Admits(key, p.platformId.value)
  }

  /** A venue the venue lookup matches: published, with a title the
      condition admits. */
  predicate IsVenueTitled(p: VenuePost, title: Match) {
    p.status == Publish && Admits(title, p.title)
  }

  predicate EventExists(s: Store, key: Match) {
    exists k :: k in s.events && IsSyncedEvent(s.events[k], key)
  }

  predicate VenueExists(s: Store, title: Match) {
    exists k :: k in s.venues && IsVenueTitled(s.venues[k], title)
  }

  /** `$event_data['venue'] ?? array()`. */
  function VenueOf(e: Event): Venue {
    e.venue.GetOr(NoVenue)
  }

  /** `format_date`: empty input and input the host's parser rejects both
      degrade to the empty string; nothing fails. */
  function FormatDate(h: Primitives, date: Option<string>): (r: string)
    ensures Empty(date) ==> r == ""
    ensures !Empty(date) && h.parseDate(date.value).None? ==> r == ""
    ensures !Empty(date) && h.parseDate(date.value).Some? ==> r == h.parseDate(date.value).value
    ensures r != "" ==> !Empty(date) && h.parseDate(date.value) == Some(r)
  {
    if Empty(date) then ""
    else match h.parseDate(date.value)
      case Some(formatted) => formatted
      case None => ""
  }

  /** `get_event_by_platform_id`: the newest published event post whose
      platform id `key` admits. */
  function GetEventByPlatformId(s: Store, key: Match): (r: Option<nat>)
    requires Valid(s)
    ensures r.Some? ==> r.value in s.events && IsSyncedEvent(s.events[r.value], key)
    ensures r.Some? ==> forall k :: k in s.events && k > r.value ==> !IsSyncedEvent(s.events[k], key)
    ensures r.None? <==> !EventExists(s, key)
  {
    FindNewest(s.events, p => IsSyncedEvent(p, key), s.nextId)
  }

  /** The lookup inside `get_or_create_venue`: the newest published venue
      whose title `title` admits. */
  function GetVenueByTitle(s: Store, title: Match): (r: Option<nat>)
    requires Valid(s)
    ensures r.Some? ==> r.value in s.venues && IsVenueTitled(s.venues[r.value], title)
    ensures r.Some? ==> forall k :: k in s.venues && k > r.value ==> !IsVenueTitled(s.venues[k], title)
    ensures r.None? <==> !VenueExists(s, title)
  {
    FindNewest(s.venues, p => IsVenueTitled(p, title), s.nextId)
  }

  /** The venue post `get_or_create_venue` inserts for a named venue. */
  function NewVenuePost(h: Primitives, v: Venue): (r: VenuePost)
    requires v.name.Some?
    ensures r.status == Publish && r.title == StoredText(h, v.name.value)
    ensures r.content == h.unslash(h.ksesPost(v.description.GetOr("")))
    ensures r.address == StoredText(h, v.address.GetOr("")) && r.city == StoredText(h, v.city.GetOr(""))
    ensures r.state == StoredText(h, v.state.GetOr("")) && r.zip == StoredText(h, v.zip.GetOr(""))
    ensures r.country == StoredText(h, v.country.GetOr(""))
  {
    VenuePost(
      StoredText(h, v.name.value),
      h.unslash(h.ksesPost(v.description.GetOr(""))),
      Publish,
      StoredText(h, v.address.GetOr("")),
      StoredText(h, v.city.GetOr("")),
      StoredText(h, v.state.GetOr("")),
      StoredText(h, v.zip.GetOr("")),
      StoredText(h, v.country.GetOr("")))
  }

  /** `get_or_create_venue`: 0 for an unnamed venue; otherwise the newest
      published venue with that exact title, or else a new one. */
  function GetOrCreateVenue(h: Primitives, mode: LookupKeys, s: Store, v: Venue): (r: Placed)
    requires Valid(s)
    ensures Valid(r.store) && Extends(s, r.store)
    ensures r.store.events == s.events && r.store.meta == s.meta
    ensures r.id == 0 <==> Empty(v.name)
    ensures Empty(v.name) ==> r.store == s
    ensures !Empty(v.name) ==> r.id in r.store.venues && r.store.venues[r.id].status == Publish
    ensures !Empty(v.name) ==>
              forall k :: k in r.store.venues && k > r.id ==> !IsVenueTitled(r.store.venues[k], VenueKey(h, mode, v.name.value))
    ensures !Empty(v.name) && VenueExists(s, VenueKey(h, mode, v.name.value)) ==>
              r.store == s && IsVenueTitled(s.venues[r.id], VenueKey(h, mode, v.name.value))
    ensures !Empty(v.name) && !VenueExists(s, VenueKey(h, mode, v.name.value)) ==>
              && r.id !in s.venues && r.id == s.nextId && r.store.nextId == s.nextId + 1
              && r.store.venues.Keys == s.venues.Keys + {r.id}
              && r.store.venues[r.id] == NewVenuePost(h, v)
  {
    if Empty(v.name) then Placed(0, s)
    else
      match GetVenueByTitle(s, VenueKey(h, mode, v.name.value))
      case Some(id) => Placed(id, s)
      case None =>
        var id := s.nextId;
        Placed(id, s.(venues := s.venues[id := NewVenuePost(h, v)], nextId := id + 1))
  }

  /** The fields both `create_event` and `update_event` write over a post,
      each as the host stores it: title, content, both dates and the venue
      reference. */
  function WithEventFields(h: Primitives, e: Event, venueId: nat, p: EventPost): (r: EventPost)
    requires e.title.Some?
    ensures r.status == p.status && r.platformId == p.platformId
    ensures r.title == StoredText(h, e.title.value) && r.venueId == venueId
    ensures r.content == h.unslash(h.ksesPost(e.description.GetOr("")))
    ensures r.startDate == h.unslash(FormatDate(h, e.startDate)) && r.endDate == h.unslash(FormatDate(h, e.endDate))
  {
    p.(title := StoredText(h, e.title.value),
       content := h.unslash(h.ksesPost(e.description.GetOr(""))),
       startDate := h.unslash(FormatDate(h, e.startDate)),
       endDate := h.unslash(FormatDate(h, e.endDate)),
       venueId := venueId)
  }

  /** The side-table row `store_event_metadata` writes: absent payloads are
      stored as empty arrays, and the status is always `completed`. */
  function MetaRowFor(h: Primitives, postId: nat, e: Event): (r: MetaRow)
    requires e.id.Some?
    ensures r.eventId == postId && r.platformEventId == h.sanitizeText(e.id.value)
    ensures r.syncStatus == Completed && r.lastSync == h.now
    ensures e.artists.None? ==> r.artists == []
    ensures e.venue.None? ==> r.venue == NoVenue
    ensures e.socialMedia.None? ==> r.socialMedia == []
    ensures e.multimedia.None? ==> r.multimedia == []
    ensures e.artists.Some? ==> r.artists == e.artists.value
    ensures e.venue.Some? ==> r.venue == e.venue.value
    ensures e.socialMedia.Some? ==> r.socialMedia == e.socialMedia.value
    ensures e.multimedia.Some? ==> r.multimedia == e.multimedia.value
  {
    MetaRow(postId, h.sanitizeText(e.id.value),
            e.artists.GetOr([]), VenueOf(e),
            e.socialMedia.GetOr([]), e.multimedia.GetOr([]),
            Completed, h.now)
  }

  /** `row` is in the table and is the only row with its platform id. */
  predicate HoldsRow(meta: seq<MetaRow>, row: MetaRow) {
    && row in meta
    && forall i :: 0 <= i < |meta| && meta[i].platformEventId == row.platformEventId ==> meta[i] == row
  }

  /** `store_event_metadata`: replaces the row for the event's platform id. */
  function StoreEventMetadata(h: Primitives, s: Store, postId: nat, e: Event): (r: Store)
    requires e.id.Some?
    ensures r.events == s.events && r.venues == s.venues && r.nextId == s.nextId
    ensures UniqueKeys(s.meta) ==> UniqueKeys(r.meta)
    ensures HoldsRow(r.meta, MetaRowFor(h, postId, e))
    ensures forall x :: x in s.meta && x.platformEventId != h.sanitizeText(e.id.value) ==> x in r.meta
    ensures forall x :: x in r.meta && x != MetaRowFor(h, postId, e) ==> x in s.meta
    ensures r.meta == Replace(s.meta, MetaRowFor(h, postId, e))
  {
    s.(meta := Replace(s.meta, MetaRowFor(h, postId, e)))
  }

  /** The post carries the event's title, content and both dates as the
      sync writes them. */
  predicate HoldsEventFields(h: Primitives, e: Event, p: EventPost)
    requires e.title.Some?
  {
    && p.title == StoredText(h, e.title.value)
    && p.content == h.unslash(h.ksesPost(e.description.GetOr("")))
    && p.startDate == h.unslash(FormatDate(h, e.startDate))
    && p.endDate == h.unslash(FormatDate(h, e.endDate))
  }

  /** `create_event`: one new published event post carrying the stored
      platform id, then its side-table row. */
  function CreateEvent(h: Primitives, mode: LookupKeys, s: Store, e: Event): (r: Placed)
    requires Valid(s) && HasRequiredFields(e)
    ensures Valid(r.store) && Extends(s, r.store)
    ensures r.id !in s.events && r.store.events.Keys == s.events.Keys + {r.id}
    ensures forall k :: k in s.events ==> r.store.events[k] == s.events[k]
    ensures r.store.events[r.id].status == Publish
    ensures r.store.events[r.id].platformId == Some(StoredText(h, e.id.value))
    ensures HoldsEventFields(h, e, r.store.events[r.id])
    ensures var venue := GetOrCreateVenue(h, mode, s, VenueOf(e));
              && r.store.events[r.id].venueId == venue.id
              && r.store.venues == venue.store.venues
              && r.id == venue.store.nextId
              && r.store.nextId == venue.store.nextId + 1
    ensures HoldsRow(r.store.meta, MetaRowFor(h, r.id, e))
    ensures r.store.meta == Replace(s.meta, MetaRowFor(h, r.id, e))
  {
    var venue := GetOrCreateVenue(h, mode, s, VenueOf(e));
    var s1 := venue.store;
    var id := s1.nextId;
    var base := EventPost("", "", Publish, "", "", 0, Some(StoredText(h, e.id.value)));
    var s2 := s1.(events := s1.events[id := WithEventFields(h, e, venue.id, base)], nextId := id + 1);
    assert Valid(s2) && Extends(s, s2) by {
      assert s1.events == s.events && id !in s.events;
    }
    Placed(id, StoreEventMetadata(h, s2, id, e))
  }

  /** `update_event`: the post keeps its id, status and platform id; title,
      content, dates and venue are overwritten; then its side-table row. */
  function UpdateEvent(h: Primitives, mode: LookupKeys, s: Store, postId: nat, e: Event): (r: Placed)
    requires Valid(s) && HasRequiredFields(e) && postId in s.events
    ensures Valid(r.store) && Extends(s, r.store)
    ensures r.id == postId && r.store.events.Keys == s.events.Keys
    ensures forall k :: k in s.events && k != postId ==> r.store.events[k] == s.events[k]
    ensures HoldsEventFields(h, e, r.store.events[postId])
    ensures var venue := GetOrCreateVenue(h, mode, s, VenueOf(e));
              && r.store.events[postId].venueId == venue.id
              && r.store.venues == venue.store.venues
              && r.store.nextId == venue.store.nextId
    ensures HoldsRow(r.store.meta, MetaRowFor(h, postId, e))
    ensures r.store.meta == Replace(s.meta, MetaRowFor(h, postId, e))
  {
    var venue := GetOrCreateVenue(h, mode, s, VenueOf(e));
    var s1 := venue.store;
    var post := WithEventFields(h, e, venue.id, s1.events[postId]);
    var s2 := s1.(events := s1.events[postId := post]);
    assert Valid(s2) && Extends(s, s2) by {
      assert s1.events == s.events && s2.events.Keys == s.events.Keys;
    }
    Placed(postId, StoreEventMetadata(h, s2, postId, e))
  }

  /** Lines 70-77 of `sync_single_event`: the post found for the platform id
      is updated, or else one is created. Either way the post written is the
      newest the lookup matches, holds the event's fields, references the
      venue `get_or_create_venue` resolved, and has its row. */
  function Upsert(h: Primitives, mode: LookupKeys, s: Store, e: Event): (r: Placed)
    requires Valid(s) && HasRequiredFields(e)
    ensures Valid(r.store) && Extends(s, r.store)
    ensures r.id in r.store.events && HoldsEventFields(h, e, r.store.events[r.id])
    ensures HoldsRow(r.store.meta, MetaRowFor(h, r.id, e))
    ensures r.store.meta == Replace(s.meta, MetaRowFor(h, r.id, e))
    ensures forall k :: k in s.events && k != r.id ==> r.store.events[k] == s.events[k]
    ensures forall k :: k in r.store.events && k > r.id ==>
              !IsSyncedEvent(r.store.events[k], LookupKey(h, mode, e.id.value))
    ensures EventExists(s, LookupKey(h, mode, e.id.value)) ==>
              && GetEventByPlatformId(s, LookupKey(h, mode, e.id.value)) == Some(r.id)
              && r.id in s.events
              && IsSyncedEvent(s.events[r.id], LookupKey(h, mode, e.id.value))
              && r.store.events.Keys == s.events.Keys
              && r.store.nextId == GetOrCreateVenue(h, mode, s, VenueOf(e)).store.nextId
    ensures !EventExists(s, LookupKey(h, mode, e.id.value)) ==>
              && r.id !in s.events
              && r.store.events.Keys == s.events.Keys + {r.id}
              && r.store.events[r.id].status == Publish
              && r.store.events[r.id].platformId == Some(StoredText(h, e.id.value))
    ensures var venue := GetOrCreateVenue(h, mode, s, VenueOf(e));
              r.store.events[r.id].venueId == venue.id && r.store.venues == venue.store.venues
  {
    var key := LookupKey(h, mode, e.id.value);
    match GetEventByPlatformId(s, key)
    case Some(postId) =>
      var u := UpdateEvent(h, mode, s, postId, e);
      assert forall k :: k in u.store.events && k > postId ==> !IsSyncedEvent(s.events[k], key);
      u
    case None =>
      CreateEvent(h, mode, s, e)
  }

  /** `sync_single_event`: an event without `id` or `title` is rejected
      before any write; any other event is upserted. */
  function SyncSingleEvent(h: Primitives, mode: LookupKeys, s: Store, e: Event): (r: EventOutcome)
    requires Valid(s)
    ensures Valid(r.store) && Extends(s, r.store)
    ensures r.result.Err? <==> !HasRequiredFields(e)
    ensures r.result.Err? ==> r.result.error == InvalidEventData && r.store == s
    ensures HasRequiredFields(e) ==>
              r.result == Ok(Upsert(h, mode, s, e).id) && r.store == Upsert(h, mode, s, e).store
  {
    if !HasRequiredFields(e) then EventOutcome(Err(InvalidEventData), s)
    else
      var u := Upsert(h, mode, s, e);
      EventOutcome(Ok(u.id), u.store)
  }

  /** How many events of the batch lack a required field. */
  function CountInvalid(evs: seq<Event>): nat {
    if |evs| == 0 then 0
    else (if HasRequiredFields(evs[0]) then 0 else 1) + CountInvalid(evs[1..])
  }

  /** The `foreach` of `sync_all_events`: each event is synced in turn on
      the store the previous one left; a failure is counted, never fatal. */
  function SyncEvents(h: Primitives, mode: LookupKeys, s: Store, evs: seq<Event>): (r: BatchOutcome)
    requires Valid(s)
    ensures Valid(r.store) && Extends(s, r.store)
    ensures r.counts.synced + r.counts.errors == |evs|
    ensures r.counts.errors == CountInvalid(evs)
    decreases |evs|
  {
    if |evs| == 0 then BatchOutcome(Counts(0, 0), s)
    else
      var first := SyncSingleEvent(h, mode, s, evs[0]);
      var rest := SyncEvents(h, mode, first.store, evs[1..]);
      ExtendsTransitive(s, first.store, rest.store);
      var counts := if first.result.Err?
        then Counts(rest.counts.synced, rest.counts.errors + 1)
        else Counts(rest.counts.synced + 1, rest.counts.errors);
      BatchOutcome(counts, rest.store)
  }

  /** `sync_all_events`: the calendar dependency is checked first, a fetch
      error aborts with that error, and a body without an `events` array
      syncs nothing. */
  function SyncAllEvents(h: Primitives, mode: LookupKeys, s: Store, fetch: FetchResult): (r: SyncOutcome)
    requires Valid(s)
    ensures Valid(r.store) && Extends(s, r.store)
    ensures !h.calendarActive ==> r.result == Err(MissingCalendar) && r.store == s
    ensures h.calendarActive && fetch.FetchFailed? ==> r.result == Err(FetchError(fetch.error)) && r.store == s
    ensures r.result.Ok? <==> h.calendarActive && fetch.Fetched?
    ensures r.result.Ok? && !fetch.events.Events? ==> r.result.value == Counts(0, 0) && r.store == s
    ensures r.result.Ok? && fetch.events.Events? ==>
              && r.result.value.synced + r.result.value.errors == |fetch.events.list|
              && r.result.value.errors == CountInvalid(fetch.events.list)
  {
    if !h.calendarActive then SyncOutcome(Err(MissingCalendar), s)
    else match fetch
      case FetchFailed(err) => SyncOutcome(Err(FetchError(err)), s)
      case Fetched(Events(list)) =>
        var batch := SyncEvents(h, mode, s, list);
        SyncOutcome(Ok(batch.counts), batch.store)
      case Fetched(_) => SyncOutcome(Ok(Counts(0, 0)), s)
  }
}

=== FILE: host.dfy ===
/** Host (WordPress / PHP) primitives the plugin calls but does not define.
    Each is an uninterpreted function supplied by the caller of the model, so
    every property proved here holds whatever the host's sanitisers, date
    parser and escapers do. */
module Host {
  import opened Wrappers

  /** What the event sync needs from its environment. */
  datatype Primitives = Primitives(
    sanitizeText: string -> string,          // sanitize_text_field
    ksesPost: string -> string,              // wp_kses_post
    parseDate: string -> Option<string>,     // date_create(..)->format('Y-m-d H:i:s'), None when unparseable
    unslash: string -> string,               // wp_unslash / stripslashes: applied by wp_insert_post and
                                             // update_post_meta to every value they store, and by the
                                             // `title` query var to the title it compares
    calendarActive: bool,                    // class_exists('Tribe__Events__Main')
    now: string                              // current_time('mysql')
  )

  /** The output escapers the enhanced-content template calls. */
  datatype Escapers = Escapers(
    html: string -> string,                  // esc_html
    url: string -> string,                   // esc_url
    attr: string -> string,                  // esc_attr
    ksesPost: string -> string               // wp_kses_post
  )
}

=== FILE: modal_enhancer.dfy ===
/** `LiveConnect_Modal_Enhancer`: reads a side-table row by local post id and
    assembles the enhanced block (artists, social links, media) that is
    appended to the calendar's event details. The block is modelled as
    structured sections and items rather than as an HTML string; the escaping
    functions stay uninterpreted. */
module ModalEnhancer {
  import opened Wrappers
  import opened Php
  import opened Host
  import opened Upstream
  import opened HostStore

  const Enabled := "enabled"

  /** The decoded JSON columns of one side-table row. */
  datatype EnhancedData = EnhancedData(
    artists: seq<Artist>,
    venue: Venue,
    socialMedia: seq<SocialEntry>,
    multimedia: seq<Media>)

  /** One `live-connect-artist` card: each part is present only when the
      artist's field is non-empty. */
  datatype ArtistCard = ArtistCard(name: Option<string>, bio: Option<string>, spotifyUrl: Option<string>)

  /** One link of `live-connect-social-links`. */
  datatype SocialLink = SocialLink(href: string, cssSuffix: string, text: string)

  datatype MediaItem = Image(src: string, alt: string) | Video(src: string)

  datatype Section =
    | ArtistsSection(cards: seq<ArtistCard>)
    | SocialSection(links: seq<SocialLink>)
    | MediaSection(items: seq<MediaItem>)

  /** The `live-connect-enhanced-content` wrapper and the sections inside it. */
  datatype Block = Block(sections: seq<Section>)

  /** A piece of modal content: text the calendar produced, or our block. */
  datatype Piece = Html(text: string) | Enhanced(block: Block)

  /** The reply of the AJAX handler. */
  datatype AjaxReply = JsonError(message: string) | JsonSuccess(html: Block, eventId: nat)

  const SecurityCheckFailed := "Security check failed"
  const InvalidEventId := "Invalid event ID"
  const NoEnhancedData := "No enhanced data available"

  /** Which of the three sections a section is. */
  datatype SectionKind = ArtistsKind | SocialKind | MediaKind

  function KindOf(s: Section): SectionKind {
    match s
    case ArtistsSection(_) => ArtistsKind
    case SocialSection(_) => SocialKind
    case MediaSection(_) => MediaKind
  }

  /** The fixed position of each kind of section inside the wrapper. */
  function Rank(k: SectionKind): nat {
    match k
    case ArtistsKind => 0
    case SocialKind => 1
    case MediaKind => 2
  }

  /** `should_enhance_modals`: the option, defaulting to `enabled` when it has
      never been stored, must be exactly `enabled`. */
  function ShouldEnhanceModals(option: Option<string>): (r: bool)
    ensures r <==> option == None || option == Some(Enabled)
  {
    option.GetOr(Enabled) == Enabled
  }

  /** `get_enhanced_event_data`: false when no row has this post id, else
      the decoded payloads of the first such row. */
  function GetEnhancedEventData(meta: seq<MetaRow>, eventId: int): (r: Option<EnhancedData>)
    ensures r.None? <==> forall i :: 0 <= i < |meta| ==> meta[i].eventId != eventId
    ensures r.Some? ==>
              exists i :: (0 <= i < |meta| && meta[i].eventId == eventId
                           && r.value == EnhancedData(meta[i].artists, meta[i].venue, meta[i].socialMedia, meta[i].multimedia))
  {
    match FirstByEventId(meta, eventId)
    case None => None
    case Some(row) => Some(EnhancedData(row.artists, row.venue, row.socialMedia, row.multimedia))
  }

  function ArtistCardOf(esc: Escapers, a: Artist): (r: ArtistCard)
    ensures r.name.Some? <==> !Empty(a.name)
    ensures r.bio.Some? <==> !Empty(a.bio)
    ensures r.spotifyUrl.Some? <==> !Empty(a.spotifyUrl)
    ensures r.name.Some? ==> r.name.value == esc.html(a.name.value)
    ensures r.bio.Some? ==> r.bio.value == esc.ksesPost(a.bio.value)
    ensures r.spotifyUrl.Some? ==> r.spotifyUrl.value == esc.url(a.spotifyUrl.value)
  {
    ArtistCard(
      if Empty(a.name) then None else Some(esc.html(a.name.value)),
      if Empty(a.bio) then None else Some(esc.ksesPost(a.bio.value)),
      if Empty(a.spotifyUrl) then None else Some(esc.url(a.spotifyUrl.value)))
  }

  /** One card per artist, in input order. */
  function ArtistCards(esc: Escapers, artists: seq<Artist>): (r: seq<ArtistCard>)
    ensures |r| == |artists|
    ensures forall i :: 0 <= i < |r| ==> r[i] == ArtistCardOf(esc, artists[i])
  {
    seq(|artists|, i requires 0 <= i < |artists| => ArtistCardOf(esc, artists[i]))
  }

  /** One link per platform → url entry, in map order, labelled with the
      platform name's first letter upper-cased. */
  function SocialLinks(esc: Escapers, entries: seq<SocialEntry>): (r: seq<SocialLink>)
    ensures |r| == |entries|
    ensures forall i :: 0 <= i < |r| ==>
              r[i] == SocialLink(esc.url(entries[i].url), esc.attr(entries[i].platform),
                                 esc.html(Ucfirst(entries[i].platform)))
  {
    seq(|entries|, i requires 0 <= i < |entries| =>
      SocialLink(esc.url(entries[i].url), esc.attr(entries[i].platform), esc.html(Ucfirst(entries[i].platform))))
  }

  /** The item one media entry renders to: an image, a video, or nothing for
      any other type. A missing caption is the empty alt text. */
  function MediaItemOf(esc: Escapers, m: Media): (r: Option<MediaItem>)
    ensures r.Some? <==> m.kind == Some("image") || m.kind == Some("video")
    ensures m.kind == Some("image") ==> r == Some(Image(esc.url(m.url.GetOr("")), esc.attr(m.caption.GetOr(""))))
    ensures m.kind == Some("video") ==> r == Some(Video(esc.url(m.url.GetOr(""))))
  {
    if m.kind == Some("image") then Some(Image(esc.url(m.url.GetOr("")), esc.attr(m.caption.GetOr(""))))
    else if m.kind == Some("video") then Some(Video(esc.url(m.url.GetOr(""))))
    else None
  }

  /** How many media entries have type `image` or `video`. */
  function CountRenderable(media: seq<Media>): nat {
    if |media| == 0 then 0
    else (if media[0].kind == Some("image") || media[0].kind == Some("video") then 1 else 0)
         + CountRenderable(media[1..])
  }

  /** The media items, skipping entries of other types; that they come out
      in input order is `EnhancerProperties.MediaItemsAppend`. */
  function MediaItems(esc: Escapers, media: seq<Media>): (r: seq<MediaItem>)
    ensures |r| == CountRenderable(media)
    ensures forall x :: x in r ==> exists m :: m in media && MediaItemOf(esc, m) == Some(x)
  {
    if |media| == 0 then []
    else
      var rest := MediaItems(esc, media[1..]);
      assert forall x :: x in rest ==> exists m :: m in media && MediaItemOf(esc, m) == Some(x) by {
        forall x | x in rest ensures exists m :: m in media && MediaItemOf(esc, m) == Some(x) {
          var m :| m in media[1..] && MediaItemOf(esc, m) == Some(x);
          assert m in media;
        }
      }
      match MediaItemOf(esc, media[0])
      case Some(item) => [item] + rest
      case None => rest
  }

  /** Does the block hold a section of this kind? */
  predicate HasSection(b: Block, kind: SectionKind) {
    exists i :: 0 <= i < |b.sections| && KindOf(b.sections[i]) == kind
  }

  /** `build_enhanced_content`: each section appears exactly when its decoded
      data is non-empty, always in the order artists, social, media. */
  function BuildEnhancedContent(esc: Escapers, d: EnhancedData): (r: Block)
    ensures HasSection(r, ArtistsKind) <==> |d.artists| > 0
    ensures HasSection(r, SocialKind) <==> |d.socialMedia| > 0
    ensures HasSection(r, MediaKind) <==> |d.multimedia| > 0
    ensures forall i, j :: 0 <= i < j < |r.sections| ==> Rank(KindOf(r.sections[i])) < Rank(KindOf(r.sections[j]))
    ensures forall i :: 0 <= i < |r.sections| ==> match r.sections[i]
              case ArtistsSection(cards) => cards == ArtistCards(esc, d.artists)
              case SocialSection(links) => links == SocialLinks(esc, d.socialMedia)
              case MediaSection(items) => items == MediaItems(esc, d.multimedia)
  {
    var artists := if |d.artists| > 0 then [ArtistsSection(ArtistCards(esc, d.artists))] else [];
    var social := if |d.socialMedia| > 0 then [SocialSection(SocialLinks(esc, d.socialMedia))] else [];
    var media := if |d.multimedia| > 0 then [MediaSection(MediaItems(esc, d.multimedia))] else [];
    var r := Block(artists + social + media);
    assert |d.artists| > 0 ==> r.sections[0] == artists[0];
    assert |d.socialMedia| > 0 ==> r.sections[|artists|] == social[0];
    assert |d.multimedia| > 0 ==> r.sections[|artists| + |social|] == media[0];
    r
  }

  /** `enhance_event_modal`: the content comes back unchanged when the
      toggle is off or the post has no row; otherwise the enhanced block is
      appended after it. */
  function EnhanceEventModal(option: Option<string>, meta: seq<MetaRow>, esc: Escapers,
                             content: seq<Piece>, eventId: int): (r: seq<Piece>)
    ensures !ShouldEnhanceModals(option) ==> r == content
    ensures GetEnhancedEventData(meta, eventId).None? ==> r == content
    ensures content <= r && |r| <= |content| + 1
    ensures |r| == |content| + 1 <==>
              ShouldEnhanceModals(option) && exists i :: 0 <= i < |meta| && meta[i].eventId == eventId
    ensures |r| == |content| + 1 ==>
              r[|content|] == Enhanced(BuildEnhancedContent(esc, GetEnhancedEventData(meta, eventId).value))
  {
    if !ShouldEnhanceModals(option) then content
    else match GetEnhancedEventData(meta, eventId)
      case None => content
      case Some(data) => content + [Enhanced(BuildEnhancedContent(esc, data))]
  }

  /** `ajax_get_enhanced_content`: a bad nonce, then a zero post id, then a
      missing row each end the request with an error; only otherwise is the
      block sent, together with the post id it was built for. */
  function AjaxGetEnhancedContent(nonceValid: bool, postedEventId: int, meta: seq<MetaRow>,
                                  esc: Escapers): (r: AjaxReply)
    ensures !nonceValid ==> r == JsonError(SecurityCheckFailed)
    ensures nonceValid && Absint(postedEventId) == 0 ==> r == JsonError(InvalidEventId)
    ensures (nonceValid && Absint(postedEventId) != 0 && GetEnhancedEventData(meta, Absint(postedEventId)).None?)
            ==> r == JsonError(NoEnhancedData)
    ensures r.JsonSuccess? <==>
              (nonceValid && postedEventId != 0 && exists i :: 0 <= i < |meta| && meta[i].eventId == Absint(postedEventId))
    ensures r.JsonSuccess? ==>
              (r.eventId == Absint(postedEventId)
               && r.html == BuildEnhancedContent(esc, GetEnhancedEventData(meta, r.eventId).value))
  {
    if !nonceValid then JsonError(SecurityCheckFailed)
    else
      var eventId := Absint(postedEventId);
      if eventId == 0 then JsonError(InvalidEventId)
      else match GetEnhancedEventData(meta, eventId)
        case None => JsonError(NoEnhancedData)
        case Some(data) => JsonSuccess(BuildEnhancedContent(esc, data), eventId)
  }
}

=== FILE: php.dfy ===
/** The few PHP built-ins whose behaviour the plugin's decisions depend on. */
module Php {
  import opened Wrappers

  /** PHP's `empty()` applied to an optional string: an unset or null value,
      the empty string and the string "0" are all empty. */
  predicate Empty(s: Option<string>) {
    s.None? || s.value == "" || s.value == "0"
  }

  /** The characters PHP's `trim` strips by default: space, tab, line feed,
      carriage return, NUL and vertical tab. */
  predicate IsTrimChar(c: char) {
    c == ' ' || c == '\t' || c == '\n' || c == '\r' || c == '\0' || c == '\U{000B}'
  }

  /** `ltrim`: the suffix left after dropping leading trim characters. */
  function TrimStart(s: string): (r: string)
    ensures |r| <= |s| && r == s[|s| - |r|..]
    ensures |r| > 0 ==> !IsTrimChar(r[0])
    ensures forall i :: 0 <= i < |s| - |r| ==> IsTrimChar(s[i])
  {
    if |s| > 0 && IsTrimChar(s[0]) then TrimStart(s[1..]) else s
  }

  /** `rtrim`: the prefix left after dropping trailing trim characters. */
  function TrimEnd(s: string): (r: string)
    ensures |r| <= |s| && r == s[..|r|]
    ensures |r| > 0 ==> !IsTrimChar(r[|r| - 1])
    ensures forall i :: |r| <= i < |s| ==> IsTrimChar(s[i])
  {
    if |s| > 0 && IsTrimChar(s[|s| - 1]) then TrimEnd(s[..|s| - 1]) else s
  }

  /** `trim`: `s` without its leading and trailing trim characters. */
  function Trim(s: string): (r: string)
    ensures |r| <= |s|
    ensures |r| > 0 ==> !IsTrimChar(r[0]) && !IsTrimChar(r[|r| - 1])
    ensures |r| == 0 ==> forall i :: 0 <= i < |s| ==> IsTrimChar(s[i])
  {
    TrimEnd(TrimStart(s))
  }

  /** A string with no trim character at either end is its own trim. */
  lemma {:induction false} TrimOfClean(s: string)
    requires |s| == 0 || (!IsTrimChar(s[0]) && !IsTrimChar(s[|s| - 1]))
    ensures Trim(s) == s
  {
  }

  /** Trimming twice is trimming once. */
  lemma TrimIdempotent(s: string)
    ensures Trim(Trim(s)) == Trim(s)
  {
    TrimOfClean(Trim(s));
  }

  predicate AllTrimChars(s: string) {
    forall i :: 0 <= i < |s| ==> IsTrimChar(s[i])
  }

  /** Trim characters added around a string do not survive `trim`. */
  lemma TrimIgnoresPadding(pre: string, s: string, post: string)
    requires AllTrimChars(pre) && AllTrimChars(post)
    ensures Trim(pre + s + post) == Trim(s)
  {
    assert pre + s + post == pre + (s + post);
    TrimStartSkips(pre, s + post);
    TrimStartAppend(s, post);
    if TrimStart(s) != "" {
      TrimEndSkips(TrimStart(s), post);
    }
  }

  lemma {:induction false} TrimStartSkips(pre: string, x: string)
    requires AllTrimChars(pre)
    ensures TrimStart(pre + x) == TrimStart(x)
    decreases |pre|
  {
    if pre != [] {
      assert (pre + x)[1..] == pre[1..] + x;
      TrimStartSkips(pre[1..], x);
    } else {
      assert pre + x == x;
    }
  }

  lemma {:induction false} TrimEndSkips(y: string, post: string)
    requires AllTrimChars(post)
    ensures TrimEnd(y + post) == TrimEnd(y)
    decreases |post|
  {
    if post != [] {
      assert (y + post)[..|y + post| - 1] == y + post[..|post| - 1];
      TrimEndSkips(y, post[..|post| - 1]);
    } else {
      assert y + post == y;
    }
  }

  lemma {:induction false} TrimStartAppend(s: string, post: string)
    requires AllTrimChars(post)
    ensures TrimStart(s + post) == if TrimStart(s) == "" then "" else TrimStart(s) + post
    decreases |s|
  {
    if s == [] {
      assert s + post == post;
    } else if IsTrimChar(s[0]) {
      assert (s + post)[1..] == s[1..] + post;
      TrimStartAppend(s[1..], post);
    }
  }

  /** Upper-cases one character when it is an ASCII lower-case letter. */
  function UpperAscii(c: char): (r: char)
    ensures 'a' <= c <= 'z' ==> 'A' <= r <= 'Z' && r as int == c as int - 32
    ensures !('a' <= c <= 'z') ==> r == c
  {
    if 'a' <= c <= 'z' then (c as int - 32) as char else c
  }

  /** `ucfirst`: the first character upper-cased, the rest untouched. */
  function Ucfirst(s: string): (r: string)
    ensures |r| == |s|
    ensures |s| > 0 ==> r[0] == UpperAscii(s[0]) && r[1..] == s[1..]
  {
    if |s| == 0 then s else [UpperAscii(s[0])] + s[1..]
  }

  /** `absint`: the absolute value of the integer the request carried
      (the conversion of the raw request string to an integer is the host's). */
  function Absint(x: int): (r: nat)
    ensures r == x || r == -x
    ensures r == 0 <==> x == 0
  {
    if x < 0 then -x else x
  }
}

=== FILE: store.dfy ===
/** The host's content store as the sync sees it: `tribe_events` posts,
    `tribe_venue` posts, the `live_connect_event_meta` side table, and the
    host's post-id counter. Post ids are positive; 0 is the "no venue"
    sentinel. */
module HostStore {
  import opened Wrappers
  import opened Upstream

  const Publish := "publish"

  /** A `tribe_events` post with the custom fields the sync writes. */
  datatype EventPost = EventPost(
    title: string,
    content: string,
    status: string,
    startDate: string,            // _EventStartDate
    endDate: string,              // _EventEndDate
    venueId: nat,                 // _EventVenueID
    platformId: Option<string>)   // _live_connect_platform_id

  /** A `tribe_venue` post with its address fields. */
  datatype VenuePost = VenuePost(
    title: string,
    content: string,
    status: string,
    address: string,
    city: string,
    state: string,
    zip: string,
    country: string)

  datatype SyncStatus = Pending | Completed

  /** One side-table row, with the columns the sync writes; the JSON columns
      hold the decoded payloads. The auto-increment `id` and the
      `created_at`/`updated_at` defaults, which every `REPLACE` renews, are
      represented only by the row's position in the table. */
  datatype MetaRow = MetaRow(
    eventId: nat,
    platformEventId: string,
    artists: seq<Artist>,
    venue: Venue,
    socialMedia: seq<SocialEntry>,
    multimedia: seq<Media>,
    syncStatus: SyncStatus,
    lastSync: string)

  /** The side table is kept in physical (auto-increment) order. */
  datatype Store = Store(
    events: map<nat, EventPost>,
    venues: map<nat, VenuePost>,
    meta: seq<MetaRow>,
    nextId: nat)

  /** The table's `UNIQUE (platform_event_id)` constraint. */
  predicate UniqueKeys(meta: seq<MetaRow>) {
    forall i, j :: 0 <= i < j < |meta| ==> meta[i].platformEventId != meta[j].platformEventId
  }

  /** What the host guarantees of its store: post ids are positive and below
      the next id it will hand out, a post has one type, and the side table
      honours its unique key. */
  predicate Valid(s: Store) {
    && s.nextId > 0
    && (forall k :: k in s.events ==> 0 < k < s.nextId)
    && (forall k :: k in s.venues ==> 0 < k < s.nextId)
    && s.events.Keys !! s.venues.Keys
    && UniqueKeys(s.meta)
  }

  /** `t` is `s` after writes that only add posts and rows, update event posts
      in place without touching their status or platform id, and never touch
      an existing venue. */
  predicate Extends(s: Store, t: Store) {
    && s.nextId <= t.nextId
    && s.events.Keys <= t.events.Keys
    && (forall k :: k in s.events ==>
          t.events[k].status == s.events[k].status && t.events[k].platformId == s.events[k].platformId)
    && s.venues.Keys <= t.venues.Keys
    && (forall k :: k in s.venues ==> t.venues[k] == s.venues[k])
  }

  lemma ExtendsTransitive(s: Store, t: Store, u: Store)
    requires Extends(s, t) && Extends(t, u)
    ensures Extends(s, u)
  {
  }

  /** The newest (highest-id) post below `below` that satisfies `p`: a
      `get_posts` query with `posts_per_page => 1` in its default newest-first
      order. */
  function FindNewest<T>(m: map<nat, T>, p: T -> bool, below: nat): (r: Option<nat>)
    ensures r.Some? ==> r.value in m && r.value < below && p(m[r.value])
    ensures r.Some? ==> forall k :: r.value < k < below && k in m ==> !p(m[k])
    ensures r.None? <==> forall k :: k < below && k in m ==> !p(m[k])
    decreases below
  {
    if below == 0 then None
    else if below - 1 in m && p(m[below - 1]) then Some(below - 1)
    else FindNewest(m, p, below - 1)
  }

  /** The rows whose platform id is not `key`, in their original order. */
  function WithoutKey(meta: seq<MetaRow>, key: string): (r: seq<MetaRow>)
    ensures |r| <= |meta|
    ensures forall x :: x in r <==> x in meta && x.platformEventId != key
    ensures UniqueKeys(meta) ==> UniqueKeys(r)
  {
    if |meta| == 0 then []
    else if meta[0].platformEventId == key then WithoutKey(meta[1..], key)
    else
      var rest := WithoutKey(meta[1..], key);
      assert UniqueKeys(meta) ==> forall x :: x in rest ==> x.platformEventId != meta[0].platformEventId by {
        if UniqueKeys(meta) {
          forall x | x in rest ensures x.platformEventId != meta[0].platformEventId {
            var j :| 0 <= j < |meta[1..]| && meta[1..][j] == x;
            assert meta[j + 1] == x;
          }
        }
      }
      [meta[0]] + rest
  }

  /** `$wpdb->replace`: any row with the same platform id is deleted and the
      new row is inserted after all others. */
  function Replace(meta: seq<MetaRow>, row: MetaRow): (r: seq<MetaRow>)
    ensures UniqueKeys(meta) ==> UniqueKeys(r)
    ensures |r| > 0 && r[|r| - 1] == row
    ensures forall i :: 0 <= i < |r| && r[i].platformEventId == row.platformEventId ==> i == |r| - 1
    ensures forall x :: x in r && x != row ==> x in meta
    ensures forall x :: x in meta && x.platformEventId != row.platformEventId ==> x in r
  {
    var rest := WithoutKey(meta, row.platformEventId);
    assert forall i :: 0 <= i < |rest| ==> rest[i] in rest;
    rest + [row]
  }

  /** A table without rows for `key` is left as it is. */
  lemma {:induction false} WithoutAbsentKey(meta: seq<MetaRow>, key: string)
    requires forall i :: 0 <= i < |meta| ==> meta[i].platformEventId != key
    ensures WithoutKey(meta, key) == meta
    decreases |meta|
  {
    if |meta| > 0 {
      WithoutAbsentKey(meta[1..], key);
      assert [meta[0]] + meta[1..] == meta;
    }
  }

  lemma {:induction false} WithoutKeyAppend(a: seq<MetaRow>, b: seq<MetaRow>, key: string)
    ensures WithoutKey(a + b, key) == WithoutKey(a, key) + WithoutKey(b, key)
    decreases |a|
  {
    if |a| == 0 {
      assert a + b == b;
    } else {
      assert (a + b)[1..] == a[1..] + b;
      WithoutKeyAppend(a[1..], b, key);
    }
  }

  /** Last write wins: replacing a row and then replacing it again under the
      same platform id is the second replacement alone. */
  lemma ReplaceTwice(meta: seq<MetaRow>, first: MetaRow, second: MetaRow)
    requires first.platformEventId == second.platformEventId
    ensures Replace(Replace(meta, first), second) == Replace(meta, second)
  {
    var key := first.platformEventId;
    var rest := WithoutKey(meta, key);
    WithoutKeyAppend(rest, [first], key);
    assert WithoutKey([first], key) == [] by {
      assert [first][1..] == [];
    }
    assert forall i :: 0 <= i < |rest| ==> rest[i] in rest;
    WithoutAbsentKey(rest, key);
  }

  /** Re-replacing a row by a copy with another timestamp moves nothing and
      changes no other modelled column. */
  lemma ReplaceTimestampOnly(meta: seq<MetaRow>, row: MetaRow, stamp: string)
    ensures var before := Replace(meta, row);
            var after := Replace(before, row.(lastSync := stamp));
              && |after| == |before|
              && forall i :: 0 <= i < |after| ==> after[i] == before[i].(lastSync := after[i].lastSync)
  {
    var row2 := row.(lastSync := stamp);
    ReplaceTwice(meta, row, row2);
    var w := WithoutKey(meta, row.platformEventId);
    assert Replace(meta, row) == w + [row];
    assert Replace(meta, row2) == w + [row2];
  }

  /** The rows whose platform id is not in `keys`, in their original order. */
  function WithoutKeys(meta: seq<MetaRow>, keys: set<string>): (r: seq<MetaRow>)
    ensures |r| <= |meta|
  {
    if |meta| == 0 then []
    else (if meta[0].platformEventId in keys then [] else [meta[0]]) + WithoutKeys(meta[1..], keys)
  }

  /** The platform ids a sequence of rows is written under. */
  function KeysOf(rows: seq<MetaRow>): (r: set<string>)
    ensures forall i :: 0 <= i < |rows| ==> rows[i].platformEventId in r
    ensures forall k :: k in r ==> exists i :: 0 <= i < |rows| && rows[i].platformEventId == k
  {
    if |rows| == 0 then {}
    else
      var rest := KeysOf(rows[1..]);
      assert forall k :: k in rest ==> exists i :: 0 <= i < |rows| && rows[i].platformEventId == k by {
        forall k | k in rest ensures exists i :: 0 <= i < |rows| && rows[i].platformEventId == k {
          var j :| 0 <= j < |rows[1..]| && rows[1..][j].platformEventId == k;
          assert rows[j + 1].platformEventId == k;
        }
      }
      {rows[0].platformEventId} + rest
  }

  /** The `$wpdb->replace` calls of a run, one row after the other. */
  function ReplaceAll(meta: seq<MetaRow>, rows: seq<MetaRow>): (r: seq<MetaRow>)
    ensures UniqueKeys(meta) ==> UniqueKeys(r)
    decreases |rows|
  {
    if |rows| == 0 then meta else ReplaceAll(Replace(meta, rows[0]), rows[1..])
  }

  /** Two tables that differ, among the modelled columns, at most in
      `last_sync`. */
  predicate SameUpToStamp(a: seq<MetaRow>, b: seq<MetaRow>) {
    |a| == |b| && forall i :: 0 <= i < |a| ==> a[i] == b[i].(lastSync := a[i].lastSync)
  }

  lemma {:induction false} WithoutKeysAppend(a: seq<MetaRow>, b: seq<MetaRow>, keys: set<string>)
    ensures WithoutKeys(a + b, keys) == WithoutKeys(a, keys) + WithoutKeys(b, keys)
    decreases |a|
  {
    if |a| == 0 {
      assert a + b == b;
    } else {
      var head := if a[0].platformEventId in keys then [] else [a[0]];
      assert (a + b)[0] == a[0] && (a + b)[1..] == a[1..] + b;
      WithoutKeysAppend(a[1..], b, keys);
      assert WithoutKeys(a + b, keys) == head + (WithoutKeys(a[1..], keys) + WithoutKeys(b, keys));
      assert WithoutKeys(a, keys) == head + WithoutKeys(a[1..], keys);
    }
  }

  /** Dropping one key and then a set of keys drops their union. */
  lemma {:induction false} WithoutKeysAfterWithoutKey(meta: seq<MetaRow>, key: string, keys: set<string>)
    ensures WithoutKeys(WithoutKey(meta, key), keys) == WithoutKeys(meta, keys + {key})
    decreases |meta|
  {
    if |meta| > 0 {
      WithoutKeysAfterWithoutKey(meta[1..], key, keys);
      if meta[0].platformEventId != key {
        var rest := WithoutKey(meta[1..], key);
        assert WithoutKey(meta, key) == [meta[0]] + rest;
        assert ([meta[0]] + rest)[1..] == rest;
      }
    }
  }

  /** A run of replacements leaves every row under another key where it was. */
  lemma {:induction false} ReplaceAllKeepsOthers(meta: seq<MetaRow>, rows: seq<MetaRow>, keys: set<string>)
    requires KeysOf(rows) <= keys
    ensures WithoutKeys(ReplaceAll(meta, rows), keys) == WithoutKeys(meta, keys)
    decreases |rows|
  {
    if |rows| > 0 {
      var row := rows[0];
      assert KeysOf(rows[1..]) <= keys by {
        forall i | 0 <= i < |rows[1..]| ensures rows[1..][i].platformEventId in keys {
          assert rows[1..][i] == rows[i + 1];
        }
      }
      ReplaceAllKeepsOthers(Replace(meta, row), rows[1..], keys);
      WithoutKeysAppend(WithoutKey(meta, row.platformEventId), [row], keys);
      assert WithoutKeys([row], keys) == [] by {
        assert [row][1..] == [];
      }
      WithoutKeysAfterWithoutKey(meta, row.platformEventId, keys);
      assert keys + {row.platformEventId} == keys;
    }
  }

  lemma SameUpToStampAppend(a: seq<MetaRow>, b: seq<MetaRow>, c: seq<MetaRow>, d: seq<MetaRow>)
    requires SameUpToStamp(a, b) && SameUpToStamp(c, d)
    ensures SameUpToStamp(a + c, b + d)
  {
    forall i | 0 <= i < |a + c| ensures (a + c)[i] == (b + d)[i].(lastSync := (a + c)[i].lastSync) {
      if i >= |a| {
        assert (a + c)[i] == c[i - |a|] && (b + d)[i] == d[i - |a|];
      }
    }
  }

  lemma {:induction false} SameUpToStampKeys(a: seq<MetaRow>, b: seq<MetaRow>)
    requires SameUpToStamp(a, b)
    ensures KeysOf(a) == KeysOf(b)
  {
    forall k | k in KeysOf(a) ensures k in KeysOf(b) {
      var i :| 0 <= i < |a| && a[i].platformEventId == k;
      assert b[i].platformEventId == k;
    }
    forall k | k in KeysOf(b) ensures k in KeysOf(a) {
      var i :| 0 <= i < |b| && b[i].platformEventId == k;
      assert a[i].platformEventId == k;
    }
  }

  /** Two tables that agree up to timestamps outside the keys a run writes,
      put through runs that agree up to timestamps, agree up to timestamps. */
  lemma {:induction false} ReplaceAllAgrees(m1: seq<MetaRow>, m2: seq<MetaRow>, rows1: seq<MetaRow>, rows2: seq<MetaRow>)
    requires SameUpToStamp(rows1, rows2)
    requires SameUpToStamp(WithoutKeys(m1, KeysOf(rows1)), WithoutKeys(m2, KeysOf(rows1)))
    ensures SameUpToStamp(ReplaceAll(m1, rows1), ReplaceAll(m2, rows2))
    decreases |rows1|
  {
    if |rows1| == 0 {
      WithoutKeysNone(m1);
      WithoutKeysNone(m2);
    } else {
      var later := KeysOf(rows1[1..]);
      assert KeysOf(rows1) == later + {rows1[0].platformEventId};
      assert SameUpToStamp(rows1[1..], rows2[1..]);
      ReplaceAgrees(m1, m2, rows1[0], rows2[0], later);
      assert Replace(m1, rows1[0]) == WithoutKey(m1, rows1[0].platformEventId) + [rows1[0]];
      assert Replace(m2, rows2[0]) == WithoutKey(m2, rows2[0].platformEventId) + [rows2[0]];
      ReplaceAllAgrees(Replace(m1, rows1[0]), Replace(m2, rows2[0]), rows1[1..], rows2[1..]);
    }
  }

  /** One replacement, written out as the rows kept plus the new row, keeps
      two tables in agreement outside the keys still to be written. */
  lemma ReplaceAgrees(m1: seq<MetaRow>, m2: seq<MetaRow>, r1: MetaRow, r2: MetaRow, later: set<string>)
    requires r1 == r2.(lastSync := r1.lastSync)
    requires SameUpToStamp(WithoutKeys(m1, later + {r1.platformEventId}), WithoutKeys(m2, later + {r1.platformEventId}))
    ensures SameUpToStamp(WithoutKeys(WithoutKey(m1, r1.platformEventId) + [r1], later),
                          WithoutKeys(WithoutKey(m2, r2.platformEventId) + [r2], later))
  {
    var key := r1.platformEventId;
    var w1, w2 := WithoutKeys(m1, later + {key}), WithoutKeys(m2, later + {key});
    WithoutKeysOfReplace(m1, r1, later);
    WithoutKeysOfReplace(m2, r2, later);
    WithoutKeysSingle(r1, later);
    WithoutKeysSingle(r2, later);
    if key in later {
      assert w1 + [] == w1 && w2 + [] == w2;
    } else {
      SameUpToStampAppend(w1, w2, [r1], [r2]);
    }
  }

  lemma WithoutKeysSingle(row: MetaRow, keys: set<string>)
    ensures WithoutKeys([row], keys) == if row.platformEventId in keys then [] else [row]
  {
    assert [row][1..] == [];
  }

  lemma WithoutKeysOfReplace(meta: seq<MetaRow>, row: MetaRow, keys: set<string>)
    ensures WithoutKeys(WithoutKey(meta, row.platformEventId) + [row], keys)
            == WithoutKeys(meta, keys + {row.platformEventId}) + WithoutKeys([row], keys)
  {
    WithoutKeysAppend(WithoutKey(meta, row.platformEventId), [row], keys);
    WithoutKeysAfterWithoutKey(meta, row.platformEventId, keys);
  }

  lemma {:induction false} WithoutKeysNone(meta: seq<MetaRow>)
    ensures WithoutKeys(meta, {}) == meta
    decreases |meta|
  {
    if |meta| > 0 {
      WithoutKeysNone(meta[1..]);
      assert [meta[0]] + meta[1..] == meta;
    }
  }

  /** Replaying a run's writes, with new timestamps, over the table that run
      produced changes no modelled column but `last_sync`. */
  lemma ReplayChangesOnlyTimestamps(meta: seq<MetaRow>, rows: seq<MetaRow>, replay: seq<MetaRow>)
    requires SameUpToStamp(replay, rows)
    ensures SameUpToStamp(ReplaceAll(ReplaceAll(meta, rows), replay), ReplaceAll(meta, rows))
  {
    var once := ReplaceAll(meta, rows);
    SameUpToStampKeys(replay, rows);
    ReplaceAllKeepsOthers(meta, rows, KeysOf(rows));
    var w := WithoutKeys(meta, KeysOf(rows));
    assert SameUpToStamp(w, w);
    ReplaceAllAgrees(once, meta, replay, rows);
  }

  /** `SELECT * ... WHERE event_id = %d` read with `get_row`: the first row,
      in table order, whose local event id is `eventId`. */
  function FirstByEventId(meta: seq<MetaRow>, eventId: int): (r: Option<MetaRow>)
    ensures r.None? <==> forall i :: 0 <= i < |meta| ==> meta[i].eventId != eventId
    ensures r.Some? ==> exists i :: 0 <= i < |meta| && meta[i] == r.value && r.value.eventId == eventId
                                  && forall j :: 0 <= j < i ==> meta[j].eventId != eventId
  {
    if |meta| == 0 then None
    else if meta[0].eventId == eventId then Some(meta[0])
    else
      var r := FirstByEventId(meta[1..], eventId);
      assert r.Some? ==> exists i :: 1 <= i < |meta| && meta[i] == r.value && r.value.eventId == eventId
                                  && forall j :: 0 <= j < i ==> meta[j].eventId != eventId by {
        if r.Some? {
          var i :| 0 <= i < |meta[1..]| && meta[1..][i] == r.value && r.value.eventId == eventId
                  && forall j :: 0 <= j < i ==> meta[1..][j].eventId != eventId;
          assert meta[i + 1] == r.value;
          forall j | 0 <= j < i + 1 ensures meta[j].eventId != eventId {
            if j > 0 { assert meta[j] == meta[1..][j - 1]; }
          }
        }
      }
      r
  }
}

=== FILE: sync_findings.dfy ===
/** A concrete run of the sync, and what it shows about looking up the raw
    upstream id while storing the sanitised one. */
module SyncFindings {
  import opened Wrappers
  import opened Php
  import opened Host
  import opened Upstream
  import opened HostStore
  import opened EventSync
  import opened SyncProperties

  /** A stand-in for `sanitize_text_field` that, like it, turns a tab into
      a space. */
  function TabsToSpaces(s: string): (r: string)
    ensures |r| == |s|
    ensures forall i :: 0 <= i < |s| ==> r[i] == (if s[i] == '\t' then ' ' else s[i])
  {
    seq(|s|, i requires 0 <= i < |s| => if s[i] == '\t' then ' ' else s[i])
  }

  const ExampleHost := Primitives(TabsToSpaces, x => x, x => None, x => x, true, "2024-05-01 20:00:00")

  const EmptyStore := Store(map[], map[], [], 1)

  /** The upstream id of the example: a tab between its two parts. */
  const TabbedId := "ext\t1"

  /** What the host stores for it. */
  const SpacedId := "ext 1"

  function BareEvent(id: string, title: string): Event {
    Event(Some(id), Some(title), None, None, None, None, None, None, None)
  }

  lemma SingletonBatch(h: Primitives, mode: LookupKeys, s: Store, e: Event)
    requires Valid(s)
    ensures SyncEvents(h, mode, s, [e]).store == SyncSingleEvent(h, mode, s, e).store
  {
    assert [e][1..] == [];
  }

  /** The host stores the tabbed id with a space in place of the tab. */
  lemma SanitizedExampleId()
    ensures StoredText(ExampleHost, TabbedId) == SpacedId
  {
    var r := TabsToSpaces(TabbedId);
    assert |r| == 5;
    assert r[0] == 'e' && r[1] == 'x' && r[2] == 't' && r[3] == ' ' && r[4] == '1';
  }

  /** Neither id has a trim character at either end. */
  lemma TabbedIdIsTrimmed()
    ensures Trim(TabbedId) == TabbedId
  {
    TrimOfClean(TabbedId);
  }

  lemma SpacedIdIsTrimmed()
    ensures Trim(SpacedId) == SpacedId
  {
    TrimOfClean(SpacedId);
  }

  lemma ExampleIdsDiffer()
    ensures TabbedId != SpacedId
  {
    assert TabbedId[3] != SpacedId[3];
  }

  /** The first sync of the tabbed id into an empty store leaves one post,
      whose platform id is the sanitised, spaced id. */
  lemma FirstSyncStoresSanitizedId()
    ensures var once := SyncSingleEvent(ExampleHost, RawLookup, EmptyStore, BareEvent(TabbedId, "Show")).store;
              && |once.events| == 1
              && forall k :: k in once.events ==> once.events[k].platformId == Some(SpacedId)
  {
    var e := BareEvent(TabbedId, "Show");
    SanitizedExampleId();
    TabbedIdIsTrimmed();
    SpacedIdIsTrimmed();
    ExampleIdsDiffer();
    assert !EventExists(EmptyStore, LookupKey(ExampleHost, RawLookup, TabbedId));
    var r := SyncSingleEvent(ExampleHost, RawLookup, EmptyStore, e);
    assert r.store.events.Keys == {r.result.value};
  }

  /** As written, an id that sanitising changes in a way the query's trim
      does not undo is never found again: the first sync of the tabbed id
      stores the spaced one, the second looks up the tabbed one, finds
      nothing and creates a second post. */
  lemma RawLookupDuplicatesOnResync()
    ensures var evs := [BareEvent(TabbedId, "Show")];
            var once := SyncEvents(ExampleHost, RawLookup, EmptyStore, evs).store;
            var twice := SyncEvents(ExampleHost, RawLookup, once, evs).store;
              && |once.events| == 1
              && |twice.events| == 2
  {
    var e := BareEvent(TabbedId, "Show");
    SingletonBatch(ExampleHost, RawLookup, EmptyStore, e);
    FirstSyncStoresSanitizedId();
    SanitizedExampleId();
    TabbedIdIsTrimmed();
    SpacedIdIsTrimmed();
    ExampleIdsDiffer();
    var once := SyncSingleEvent(ExampleHost, RawLookup, EmptyStore, e).store;
    SingletonBatch(ExampleHost, RawLookup, once, e);
    assert LookupKey(ExampleHost, RawLookup, TabbedId) == Equals(TabbedId);
    assert !EventExists(once, Equals(TabbedId));
    var second := SyncSingleEvent(ExampleHost, RawLookup, once, e);
    assert second.store.events.Keys == once.events.Keys + {second.result.value};
    assert second.result.value !in once.events.Keys;
  }

  /** Looking up the stored id instead, the same two syncs leave one post. */
  lemma SanitizedLookupKeepsOnePost()
    ensures var evs := [BareEvent(TabbedId, "Show")];
            var once := SyncEvents(ExampleHost, SanitizedLookup, EmptyStore, evs).store;
            var twice := SyncEvents(ExampleHost, SanitizedLookup, once, evs).store;
              && |once.events| == 1
              && |twice.events| == 1
  {
    var e := BareEvent(TabbedId, "Show");
    var evs := [e];
    SanitizedExampleId();
    TabbedIdIsTrimmed();
    SpacedIdIsTrimmed();
    ExampleIdsDiffer();
    var first := SyncSingleEvent(ExampleHost, SanitizedLookup, EmptyStore, e);
    assert !EventExists(EmptyStore, LookupKey(ExampleHost, SanitizedLookup, TabbedId));
    var once := SyncEvents(ExampleHost, SanitizedLookup, EmptyStore, evs).store;
    assert once == SyncEvents(ExampleHost, SanitizedLookup, first.store, []).store == first.store;
    assert StoredIdTrimmed(ExampleHost, evs[0]) && SanitizedNameTrimmed(ExampleHost, evs[0]);
    SanitizedResyncAddsNothing(ExampleHost, EmptyStore, evs);
  }

  /** With the lookup given the stored id, uniqueness of platform ids needs
      only that the meta query's trim leaves every stored id alone. */
  lemma SanitizedLookupKeepsPlatformIdsUnique(h: Primitives, s: Store, evs: seq<Event>)
    requires Valid(s) && UniquePlatformIds(s)
    requires forall i :: 0 <= i < |evs| ==> StoredIdTrimmed(h, evs[i])
    ensures UniquePlatformIds(SyncEvents(h, SanitizedLookup, s, evs).store)
  {
    forall i | 0 <= i < |evs| ensures IdFoundAgain(h, SanitizedLookup, evs[i]) {
      SanitizedLookupIsStable(h, evs[i]);
    }
    SyncPreservesUniquePlatformIds(h, SanitizedLookup, s, evs);
  }
}

=== FILE: sync_properties.dfy ===
/** Properties of the event sync that relate several operations or a whole
    batch: re-running a batch creates nothing, platform ids stay unique,
    venues are deduplicated, and every side-table row points at the post
    that carries its platform id. */
module SyncProperties {
  import opened Wrappers
  import opened Php
  import opened Host
  import opened Upstream
  import opened HostStore
  import opened EventSync

  /** The event lookup admits the value the host stores as the post's
      platform id: its condition is dropped, or compares exactly that value. */
  predicate IdFoundAgain(h: Primitives, mode: LookupKeys, e: Event) {
    HasRequiredFields(e) ==> Admits(LookupKey(h, mode, e.id.value), StoredText(h, e.id.value))
  }

  /** Moreover the condition is not dropped, so the lookup matches posts
      with that id only. */
  predicate IdStable(h: Primitives, mode: LookupKeys, e: Event) {
    HasRequiredFields(e) ==> LookupKey(h, mode, e.id.value) == Equals(StoredText(h, e.id.value))
  }

  /** The side-table key, which is sanitised but not unslashed, equals the
      platform id stored on the post. */
  predicate RowKeyStable(h: Primitives, e: Event) {
    HasRequiredFields(e) ==> h.sanitizeText(e.id.value) == StoredText(h, e.id.value)
  }

  /** The venue lookup admits the title the host stores for the event's
      venue. */
  predicate VenueNameStable(h: Primitives, mode: LookupKeys, e: Event) {
    HasRequiredFields(e) && !Empty(VenueOf(e).name) ==>
      Admits(VenueKey(h, mode, VenueOf(e).name.value), StoredText(h, VenueOf(e).name.value))
  }

  /** The stored platform id has no trim character at either end, so the
      meta query's trim leaves it alone. */
  predicate StoredIdTrimmed(h: Primitives, e: Event) {
    HasRequiredFields(e) ==> Trim(StoredText(h, e.id.value)) == StoredText(h, e.id.value)
  }

  /** The sanitised venue name has no trim character at either end, as
      `sanitize_text_field`, which trims, guarantees. */
  predicate SanitizedNameTrimmed(h: Primitives, e: Event) {
    HasRequiredFields(e) && !Empty(VenueOf(e).name) ==>
      Trim(h.sanitizeText(VenueOf(e).name.value)) == h.sanitizeText(VenueOf(e).name.value)
  }

  /** The lookups that are given the stored strings find them again unless
      the query's trim changes them. */
  lemma SanitizedLookupIsStable(h: Primitives, e: Event)
    ensures IdFoundAgain(h, SanitizedLookup, e) <==>
              (HasRequiredFields(e) ==> StoredText(h, e.id.value) == "" || StoredIdTrimmed(h, e))
    ensures SanitizedNameTrimmed(h, e) ==> VenueNameStable(h, SanitizedLookup, e)
  {
  }

  predicate BatchStable(h: Primitives, mode: LookupKeys, evs: seq<Event>) {
    forall i :: 0 <= i < |evs| ==> IdFoundAgain(h, mode, evs[i]) && VenueNameStable(h, mode, evs[i])
  }

  /** The next sync of `e` on `s` finds both its post and its venue. */
  predicate Covered(h: Primitives, mode: LookupKeys, s: Store, e: Event) {
    HasRequiredFields(e) ==>
      && EventExists(s, LookupKey(h, mode, e.id.value))
      && (Empty(VenueOf(e).name) || VenueExists(s, VenueKey(h, mode, VenueOf(e).name.value)))
  }

  lemma CoveredPersists(h: Primitives, mode: LookupKeys, s: Store, t: Store, e: Event)
    requires Extends(s, t) && Covered(h, mode, s, e)
    ensures Covered(h, mode, t, e)
  {
    if HasRequiredFields(e) {
      var key := LookupKey(h, mode, e.id.value);
      var k :| k in s.events && IsSyncedEvent(s.events[k], key);
      assert IsSyncedEvent(t.events[k], key);
      if !Empty(VenueOf(e).name) {
        var title := VenueKey(h, mode, VenueOf(e).name.value);
        var v :| v in s.venues && IsVenueTitled(s.venues[v], title);
        assert t.venues[v] == s.venues[v];
      }
    }
  }

  /** After one sync of a stable event, the next sync of it finds its post
      and its venue. */
  lemma SyncSingleCovers(h: Primitives, mode: LookupKeys, s: Store, e: Event)
    requires Valid(s) && IdFoundAgain(h, mode, e) && VenueNameStable(h, mode, e)
    ensures Covered(h, mode, SyncSingleEvent(h, mode, s, e).store, e)
  {
    if HasRequiredFields(e) {
      var u := Upsert(h, mode, s, e);
      assert SyncSingleEvent(h, mode, s, e).store == u.store;
      UpsertIsFound(h, mode, s, e);
      if !Empty(VenueOf(e).name) {
        UpsertVenueIsFound(h, mode, s, e);
      }
    }
  }

  /** The post a stable event's upsert writes is one its lookup matches. */
  lemma UpsertIsFound(h: Primitives, mode: LookupKeys, s: Store, e: Event)
    requires Valid(s) && HasRequiredFields(e) && IdFoundAgain(h, mode, e)
    ensures var u := Upsert(h, mode, s, e);
              IsSyncedEvent(u.store.events[u.id], LookupKey(h, mode, e.id.value))
  {
    var u := Upsert(h, mode, s, e);
    var key := LookupKey(h, mode, e.id.value);
    if !EventExists(s, key) {
      assert Admits(key, StoredText(h, e.id.value));
    }
  }

  /** The venue a stable event's upsert references is one the venue lookup
      matches, and the newest such. */
  lemma UpsertVenueIsFound(h: Primitives, mode: LookupKeys, s: Store, e: Event)
    requires Valid(s) && HasRequiredFields(e) && VenueNameStable(h, mode, e) && !Empty(VenueOf(e).name)
    ensures var u := Upsert(h, mode, s, e);
            var v := u.store.events[u.id].venueId;
            var title := VenueKey(h, mode, VenueOf(e).name.value);
              && v in u.store.venues && IsVenueTitled(u.store.venues[v], title)
              && forall k :: k in u.store.venues && k > v ==> !IsVenueTitled(u.store.venues[k], title)
  {
    var g := GetOrCreateVenue(h, mode, s, VenueOf(e));
    var title := VenueKey(h, mode, VenueOf(e).name.value);
    if !VenueExists(s, title) {
      assert Admits(title, StoredText(h, VenueOf(e).name.value));
    }
    assert IsVenueTitled(g.store.venues[g.id], title);
  }

  /** After a batch, the next sync of any of its stable events finds both
      its post and its venue. */
  lemma {:induction false} SyncEventsCovers(h: Primitives, mode: LookupKeys, s: Store, evs: seq<Event>)
    requires Valid(s) && BatchStable(h, mode, evs)
    ensures forall i :: 0 <= i < |evs| ==> Covered(h, mode, SyncEvents(h, mode, s, evs).store, evs[i])
    decreases |evs|
  {
    if |evs| > 0 {
      var first := SyncSingleEvent(h, mode, s, evs[0]);
      var final := SyncEvents(h, mode, s, evs).store;
      assert final == SyncEvents(h, mode, first.store, evs[1..]).store;
      SyncSingleCovers(h, mode, s, evs[0]);
      SyncEventsCovers(h, mode, first.store, evs[1..]);
      CoveredPersists(h, mode, first.store, final, evs[0]);
      forall i | 1 <= i < |evs| ensures Covered(h, mode, final, evs[i]) {
        assert evs[i] == evs[1..][i - 1];
      }
    }
  }

  /** Syncing a covered event creates no event post and no venue post. */
  lemma CoveredSyncCreatesNothing(h: Primitives, mode: LookupKeys, s: Store, e: Event)
    requires Valid(s) && Covered(h, mode, s, e)
    ensures var t := SyncSingleEvent(h, mode, s, e).store;
              t.events.Keys == s.events.Keys && t.venues == s.venues && t.nextId == s.nextId
  {
    if HasRequiredFields(e) {
      var u := Upsert(h, mode, s, e);
      var g := GetOrCreateVenue(h, mode, s, VenueOf(e));
      assert g.store == s;
      assert SyncSingleEvent(h, mode, s, e).store == u.store;
    }
  }

  /** A batch all of whose events are already covered creates no event post
      and no venue post and leaves every venue as it was. */
  lemma {:induction false} CoveredBatchCreatesNothing(h: Primitives, mode: LookupKeys, s: Store, evs: seq<Event>)
    requires Valid(s)
    requires forall i :: 0 <= i < |evs| ==> Covered(h, mode, s, evs[i])
    ensures var t := SyncEvents(h, mode, s, evs).store;
              t.events.Keys == s.events.Keys && t.venues == s.venues && t.nextId == s.nextId
    decreases |evs|
  {
    if |evs| > 0 {
      var first := SyncSingleEvent(h, mode, s, evs[0]);
      assert Covered(h, mode, s, evs[0]);
      forall i | 0 <= i < |evs[1..]| ensures Covered(h, mode, first.store, evs[1..][i]) {
        assert Covered(h, mode, s, evs[i + 1]);
        CoveredPersists(h, mode, s, first.store, evs[i + 1]);
      }
      CoveredSyncCreatesNothing(h, mode, s, evs[0]);
      CoveredBatchCreatesNothing(h, mode, first.store, evs[1..]);
    }
  }

  /** Re-sync adds nothing: syncing the same batch a second time creates no
      event post and no venue post, provided every id and venue name is one
      the lookups can find again. */
  lemma ResyncAddsNothing(h: Primitives, mode: LookupKeys, s: Store, evs: seq<Event>)
    requires Valid(s) && BatchStable(h, mode, evs)
    ensures var once := SyncEvents(h, mode, s, evs).store;
            var twice := SyncEvents(h, mode, once, evs).store;
              && twice.events.Keys == once.events.Keys
              && twice.venues == once.venues
              && twice.nextId == once.nextId
  {
    var once := SyncEvents(h, mode, s, evs).store;
    SyncEventsCovers(h, mode, s, evs);
    CoveredBatchCreatesNothing(h, mode, once, evs);
  }

  /** With the lookups given the stored strings the same holds for every
      batch whose stored ids and sanitised venue names the queries' trim
      leaves alone. */
  lemma SanitizedResyncAddsNothing(h: Primitives, s: Store, evs: seq<Event>)
    requires Valid(s)
    requires forall i :: 0 <= i < |evs| ==> StoredIdTrimmed(h, evs[i]) && SanitizedNameTrimmed(h, evs[i])
    ensures var once := SyncEvents(h, SanitizedLookup, s, evs).store;
            var twice := SyncEvents(h, SanitizedLookup, once, evs).store;
              && twice.events.Keys == once.events.Keys
              && twice.venues == once.venues
              && twice.nextId == once.nextId
  {
    forall i | 0 <= i < |evs|
      ensures IdFoundAgain(h, SanitizedLookup, evs[i]) && VenueNameStable(h, SanitizedLookup, evs[i])
    {
      SanitizedLookupIsStable(h, evs[i]);
    }
    ResyncAddsNothing(h, SanitizedLookup, s, evs);
  }

  /** The post a second sync of `e` looks up is the one the first sync wrote. */
  lemma SyncedPostIsNewest(h: Primitives, mode: LookupKeys, s: Store, e: Event)
    requires Valid(s) && HasRequiredFields(e) && IdFoundAgain(h, mode, e)
    ensures var r := SyncSingleEvent(h, mode, s, e);
              GetEventByPlatformId(r.store, LookupKey(h, mode, e.id.value)) == Some(r.result.value)
  {
    var key := LookupKey(h, mode, e.id.value);
    var u := Upsert(h, mode, s, e);
    assert SyncSingleEvent(h, mode, s, e) == EventOutcome(Ok(u.id), u.store);
    UpsertIsFound(h, mode, s, e);
    var q := GetEventByPlatformId(u.store, key);
    assert q.Some?;
    assert !(q.value < u.id);
  }

  /** The venue a second sync of `e` resolves is the one the first sync used. */
  lemma SyncedVenueIsNewest(h: Primitives, mode: LookupKeys, s: Store, e: Event, h2: Primitives)
    requires Valid(s) && HasRequiredFields(e) && VenueNameStable(h, mode, e)
    requires h2.sanitizeText == h.sanitizeText && h2.unslash == h.unslash
    ensures var r := SyncSingleEvent(h, mode, s, e);
            var g := GetOrCreateVenue(h2, mode, r.store, VenueOf(e));
              g.id == r.store.events[r.result.value].venueId && g.store == r.store
  {
    var u := Upsert(h, mode, s, e);
    assert SyncSingleEvent(h, mode, s, e) == EventOutcome(Ok(u.id), u.store);
    var t := u.store;
    var v := t.events[u.id].venueId;
    if !Empty(VenueOf(e).name) {
      var name := VenueOf(e).name.value;
      var title := VenueKey(h, mode, name);
      VenueKeyIgnoresClock(h, h2, mode, name);
      UpsertVenueIsFound(h, mode, s, e);
      assert VenueExists(t, title);
      var q := GetVenueByTitle(t, title).value;
      assert !(q < v) && !(v < q);
    } else {
      assert v == GetOrCreateVenue(h, mode, s, VenueOf(e)).id;
    }
  }

  /** The venue lookup's condition depends on the host only through its
      sanitiser and its unslashing. */
  lemma VenueKeyIgnoresClock(h: Primitives, h2: Primitives, mode: LookupKeys, name: string)
    requires h2.sanitizeText == h.sanitizeText && h2.unslash == h.unslash
    ensures VenueKey(h2, mode, name) == VenueKey(h, mode, name)
  {
  }

  /** The post the first sync wrote already holds what a second sync would
      write into it. */
  lemma SyncedPostIsSettled(h: Primitives, mode: LookupKeys, s: Store, e: Event, h2: Primitives)
    requires Valid(s) && HasRequiredFields(e)
    requires h2.sanitizeText == h.sanitizeText && h2.unslash == h.unslash && h2.ksesPost == h.ksesPost && h2.parseDate == h.parseDate
    ensures var r := SyncSingleEvent(h, mode, s, e);
            var p := r.result.value;
              WithEventFields(h2, e, r.store.events[p].venueId, r.store.events[p]) == r.store.events[p]
  {
    var u := Upsert(h, mode, s, e);
    assert SyncSingleEvent(h, mode, s, e) == EventOutcome(Ok(u.id), u.store);
    var post := u.store.events[u.id];
    assert HoldsEventFields(h, e, post);
  }

  /** Updating a post that already holds the event's fields, with a venue
      that is already there, only rewrites the side-table row. */
  lemma UpdateSettledPost(h: Primitives, mode: LookupKeys, t: Store, p: nat, e: Event)
    requires Valid(t) && HasRequiredFields(e) && p in t.events
    requires GetOrCreateVenue(h, mode, t, VenueOf(e)) == Placed(t.events[p].venueId, t)
    requires WithEventFields(h, e, t.events[p].venueId, t.events[p]) == t.events[p]
    ensures UpdateEvent(h, mode, t, p, e) == Placed(p, StoreEventMetadata(h, t, p, e))
  {
    assert t.events[p := t.events[p]] == t.events;
    assert t.(events := t.events) == t;
  }

  /** A second sync of the same event only rewrites its side-table row. */
  lemma ResyncOnlyRewritesRow(h: Primitives, mode: LookupKeys, s: Store, e: Event, later: string)
    requires Valid(s) && HasRequiredFields(e) && IdFoundAgain(h, mode, e) && VenueNameStable(h, mode, e)
    ensures var once := SyncSingleEvent(h, mode, s, e);
            var twice := SyncSingleEvent(h.(now := later), mode, once.store, e);
              && twice.result == once.result
              && twice.store == StoreEventMetadata(h.(now := later), once.store, once.result.value, e)
  {
    var h2 := h.(now := later);
    var once := SyncSingleEvent(h, mode, s, e);
    var t := once.store;
    var p := once.result.value;
    var key := LookupKey(h, mode, e.id.value);
    assert LookupKey(h2, mode, e.id.value) == key;
    SyncedPostIsNewest(h, mode, s, e);
    SyncedVenueIsNewest(h, mode, s, e, h2);
    SyncedPostIsSettled(h, mode, s, e, h2);
    assert Valid(t) && p in t.events;
    UpdateSettledPost(h2, mode, t, p, e);
    assert SyncSingleEvent(h2, mode, t, e) == EventOutcome(Ok(p), UpdateEvent(h2, mode, t, p, e).store) by {
      assert GetEventByPlatformId(t, LookupKey(h2, mode, e.id.value)) == Some(p);
    }
  }

  /** Idempotence: a second sync of the same event changes nothing but the
      timestamp of its side-table row, among the modelled columns. The same post is reported, posts and
      venues are identical, and every row keeps its place and its content. */
  lemma ResyncEventChangesOnlyTimestamp(h: Primitives, mode: LookupKeys, s: Store, e: Event, later: string)
    requires Valid(s) && HasRequiredFields(e) && IdFoundAgain(h, mode, e) && VenueNameStable(h, mode, e)
    ensures var once := SyncSingleEvent(h, mode, s, e);
            var twice := SyncSingleEvent(h.(now := later), mode, once.store, e);
              && twice.result == once.result
              && twice.store.events == once.store.events
              && twice.store.venues == once.store.venues
              && twice.store.nextId == once.store.nextId
              && |twice.store.meta| == |once.store.meta|
              && forall i :: 0 <= i < |twice.store.meta| ==>
                   twice.store.meta[i] == once.store.meta[i].(lastSync := twice.store.meta[i].lastSync)
  {
    var once := SyncSingleEvent(h, mode, s, e);
    var p := once.result.value;
    ResyncOnlyRewritesRow(h, mode, s, e, later);
    SyncedRowReplaces(h, mode, s, e);
    ReplaceTimestampOnly(s.meta, MetaRowFor(h, p, e), later);
    assert MetaRowFor(h.(now := later), p, e) == MetaRowFor(h, p, e).(lastSync := later);
  }

  /** The side table after a sync is the old table with the event's row
      replaced. */
  lemma SyncedRowReplaces(h: Primitives, mode: LookupKeys, s: Store, e: Event)
    requires Valid(s) && HasRequiredFields(e)
    ensures var r := SyncSingleEvent(h, mode, s, e);
              r.store.meta == Replace(s.meta, MetaRowFor(h, r.result.value, e))
  {
    var u := Upsert(h, mode, s, e);
    assert SyncSingleEvent(h, mode, s, e) == EventOutcome(Ok(u.id), u.store);
  }

  /** At most one published event post carries any given platform id. */
  predicate UniquePlatformIds(s: Store) {
    forall j, k ::
      (j in s.events && k in s.events && j != k && IsPublishedWithId(s.events[j]) && IsPublishedWithId(s.events[k]))
      ==> s.events[j].platformId != s.events[k].platformId
  }

  predicate IsPublishedWithId(p: EventPost) {
    p.status == Publish && p.platformId.Some?
  }

  lemma SyncSinglePreservesUniquePlatformIds(h: Primitives, mode: LookupKeys, s: Store, e: Event)
    requires Valid(s) && UniquePlatformIds(s) && IdFoundAgain(h, mode, e)
    ensures UniquePlatformIds(SyncSingleEvent(h, mode, s, e).store)
  {
    if HasRequiredFields(e) {
      UpsertPreservesUniquePlatformIds(h, mode, s, e);
    }
  }

  lemma UpsertPreservesUniquePlatformIds(h: Primitives, mode: LookupKeys, s: Store, e: Event)
    requires Valid(s) && HasRequiredFields(e) && UniquePlatformIds(s) && IdFoundAgain(h, mode, e)
    ensures UniquePlatformIds(Upsert(h, mode, s, e).store)
  {
    var u := Upsert(h, mode, s, e);
    var t := u.store;
    var key := LookupKey(h, mode, e.id.value);
    UpsertIsFound(h, mode, s, e);
    assert t.events.Keys <= s.events.Keys + {u.id};
    forall j, k | j in t.events && k in t.events && j != k && IsPublishedWithId(t.events[j]) && IsPublishedWithId(t.events[k])
      ensures t.events[j].platformId != t.events[k].platformId
    {
      if j in s.events && k in s.events {
        assert IsPublishedWithId(s.events[j]) && IsPublishedWithId(s.events[k]);
      } else if j in s.events {
        assert k == u.id && !EventExists(s, key);
        assert !IsSyncedEvent(s.events[j], key);
      } else {
        assert j == u.id && !EventExists(s, key);
        assert !IsSyncedEvent(s.events[k], key);
      }
    }
  }

  /** Uniqueness: a batch of events whose ids the lookup can find again
      never gives two published event posts the same platform id. */
  lemma {:induction false} SyncPreservesUniquePlatformIds(h: Primitives, mode: LookupKeys, s: Store, evs: seq<Event>)
    requires Valid(s) && UniquePlatformIds(s)
    requires forall i :: 0 <= i < |evs| ==> IdFoundAgain(h, mode, evs[i])
    ensures UniquePlatformIds(SyncEvents(h, mode, s, evs).store)
    decreases |evs|
  {
    if |evs| > 0 {
      var first := SyncSingleEvent(h, mode, s, evs[0]);
      SyncSinglePreservesUniquePlatformIds(h, mode, s, evs[0]);
      assert forall i :: 0 <= i < |evs[1..]| ==> evs[1..][i] == evs[i + 1];
      SyncPreservesUniquePlatformIds(h, mode, first.store, evs[1..]);
    }
  }

  /** Every venue the batch created is published and is the only published
      venue with its title: a venue named by several events is created once. */
  predicate NewVenuesDistinct(s: Store, t: Store) {
    && (forall k :: k in t.venues && k !in s.venues ==> t.venues[k].status == Publish)
    && forall k, j ::
      (k in t.venues && k !in s.venues && j in t.venues && j != k && t.venues[j].status == Publish)
      ==> t.venues[j].title != t.venues[k].title
  }

  lemma SyncSingleDedupsVenue(h: Primitives, mode: LookupKeys, s: Store, e: Event)
    requires Valid(s) && VenueNameStable(h, mode, e)
    ensures NewVenuesDistinct(s, SyncSingleEvent(h, mode, s, e).store)
  {
    if HasRequiredFields(e) {
      var u := Upsert(h, mode, s, e);
      assert SyncSingleEvent(h, mode, s, e).store == u.store;
      assert u.store.venues == GetOrCreateVenue(h, mode, s, VenueOf(e)).store.venues;
      VenueDedup(h, mode, s, VenueOf(e));
    }
  }

  /** Resolving a venue whose name the lookup can find again creates at most
      one venue, and only when no published venue has its title. */
  lemma VenueDedup(h: Primitives, mode: LookupKeys, s: Store, v: Venue)
    requires Valid(s)
    requires !Empty(v.name) ==> Admits(VenueKey(h, mode, v.name.value), StoredText(h, v.name.value))
    ensures NewVenuesDistinct(s, GetOrCreateVenue(h, mode, s, v).store)
  {
    var g := GetOrCreateVenue(h, mode, s, v);
    var t := g.store;
    if !Empty(v.name) && !VenueExists(s, VenueKey(h, mode, v.name.value)) {
      var title := VenueKey(h, mode, v.name.value);
      var stored := StoredText(h, v.name.value);
      assert t.venues[g.id].title == stored;
      forall j | j in t.venues && j != g.id && t.venues[j].status == Publish
        ensures t.venues[j].title != stored
      {
        assert j in s.venues && t.venues[j] == s.venues[j];
        assert !IsVenueTitled(s.venues[j], title);
      }
    }
  }

  /** Venue dedup: across a whole batch whose venue names the lookup can find
      again, each created venue is the only published venue with its title. */
  lemma {:induction false} SyncDedupsVenues(h: Primitives, mode: LookupKeys, s: Store, evs: seq<Event>)
    requires Valid(s)
    requires forall i :: 0 <= i < |evs| ==> VenueNameStable(h, mode, evs[i])
    ensures NewVenuesDistinct(s, SyncEvents(h, mode, s, evs).store)
    decreases |evs|
  {
    if |evs| > 0 {
      var mid := SyncSingleEvent(h, mode, s, evs[0]).store;
      var t := SyncEvents(h, mode, s, evs).store;
      assert t == SyncEvents(h, mode, mid, evs[1..]).store;
      SyncSingleDedupsVenue(h, mode, s, evs[0]);
      assert forall i :: 0 <= i < |evs[1..]| ==> evs[1..][i] == evs[i + 1];
      SyncDedupsVenues(h, mode, mid, evs[1..]);
      NewVenuesDistinctCompose(s, mid, t);
    }
  }

  lemma NewVenuesDistinctCompose(s: Store, mid: Store, t: Store)
    requires Extends(s, mid) && Extends(mid, t)
    requires NewVenuesDistinct(s, mid) && NewVenuesDistinct(mid, t)
    ensures NewVenuesDistinct(s, t)
  {
    forall k | k in t.venues && k !in s.venues ensures t.venues[k].status == Publish {
      if k in mid.venues {
        assert mid.venues[k] == t.venues[k];
      }
    }
    forall k, j | k in t.venues && k !in s.venues && j in t.venues && j != k && t.venues[j].status == Publish
      ensures t.venues[j].title != t.venues[k].title
    {
      if k in mid.venues {
        assert mid.venues[k] == t.venues[k];
        if j in mid.venues {
          assert mid.venues[j] == t.venues[j];
        }
      }
    }
  }

  /** Each side-table row points at an event post that carries the row's
      platform id. */
  predicate RowsLinked(s: Store) {
    forall i :: 0 <= i < |s.meta| ==>
      s.meta[i].eventId in s.events && s.events[s.meta[i].eventId].platformId == Some(s.meta[i].platformEventId)
  }

  /** Links survive writes that extend the store and add at most one row,
      provided the added row is itself linked. */
  lemma RowsLinkedAfterWrite(s: Store, t: Store, row: MetaRow)
    requires RowsLinked(s) && Extends(s, t)
    requires forall x :: x in t.meta && x != row ==> x in s.meta
    requires row.eventId in t.events && t.events[row.eventId].platformId == Some(row.platformEventId)
    ensures RowsLinked(t)
  {
    forall i | 0 <= i < |t.meta|
      ensures t.meta[i].eventId in t.events
      ensures t.events[t.meta[i].eventId].platformId == Some(t.meta[i].platformEventId)
    {
      var x := t.meta[i];
      if x != row {
        assert x in t.meta;
        assert x in s.meta;
        var j :| 0 <= j < |s.meta| && s.meta[j] == x;
      }
    }
  }

  lemma SyncSinglePreservesRowsLinked(h: Primitives, mode: LookupKeys, s: Store, e: Event)
    requires Valid(s) && RowsLinked(s) && IdStable(h, mode, e) && RowKeyStable(h, e)
    ensures RowsLinked(SyncSingleEvent(h, mode, s, e).store)
  {
    if HasRequiredFields(e) {
      var u := Upsert(h, mode, s, e);
      assert SyncSingleEvent(h, mode, s, e).store == u.store;
      var row := MetaRowFor(h, u.id, e);
      UpsertIsFound(h, mode, s, e);
      assert LookupKey(h, mode, e.id.value) == Equals(StoredText(h, e.id.value));
      RowsLinkedAfterWrite(s, u.store, row);
    }
  }

  /** Over linked rows with a unique key, a post has at most one row. */
  lemma LinkedRowsHaveDistinctEvents(s: Store)
    requires UniqueKeys(s.meta) && RowsLinked(s)
    ensures forall i, j :: 0 <= i < j < |s.meta| ==> s.meta[i].eventId != s.meta[j].eventId
  {
    forall i, j | 0 <= i < j < |s.meta| ensures s.meta[i].eventId != s.meta[j].eventId {
      assert s.meta[i].platformEventId != s.meta[j].platformEventId;
      assert s.events[s.meta[i].eventId].platformId == Some(s.meta[i].platformEventId);
      assert s.events[s.meta[j].eventId].platformId == Some(s.meta[j].platformEventId);
    }
  }

  /** Metadata row: once an event is synced, its post has exactly one row,
      that row is the one just written (status `completed`, the post's id,
      absent payloads as empty arrays), and reading rows by post id finds it. */
  lemma SyncedEventHasItsRow(h: Primitives, mode: LookupKeys, s: Store, e: Event)
    requires Valid(s) && RowsLinked(s) && HasRequiredFields(e) && IdStable(h, mode, e) && RowKeyStable(h, e)
    ensures var r := SyncSingleEvent(h, mode, s, e);
              && r.result.Ok?
              && FirstByEventId(r.store.meta, r.result.value) == Some(MetaRowFor(h, r.result.value, e))
              && forall i :: 0 <= i < |r.store.meta| && r.store.meta[i].eventId == r.result.value ==>
                   r.store.meta[i] == MetaRowFor(h, r.result.value, e)
  {
    var u := Upsert(h, mode, s, e);
    assert SyncSingleEvent(h, mode, s, e) == EventOutcome(Ok(u.id), u.store);
    UpsertHasItsRow(h, mode, s, e);
  }

  lemma UpsertHasItsRow(h: Primitives, mode: LookupKeys, s: Store, e: Event)
    requires Valid(s) && RowsLinked(s) && HasRequiredFields(e) && IdStable(h, mode, e) && RowKeyStable(h, e)
    ensures var u := Upsert(h, mode, s, e);
              && FirstByEventId(u.store.meta, u.id) == Some(MetaRowFor(h, u.id, e))
              && forall i :: 0 <= i < |u.store.meta| && u.store.meta[i].eventId == u.id ==>
                   u.store.meta[i] == MetaRowFor(h, u.id, e)
  {
    var u := Upsert(h, mode, s, e);
    var row := MetaRowFor(h, u.id, e);
    UpsertIsFound(h, mode, s, e);
    assert LookupKey(h, mode, e.id.value) == Equals(StoredText(h, e.id.value));
    RowsLinkedAfterWrite(s, u.store, row);
    assert u.store.meta[|u.store.meta| - 1] == row;
    LastRowIsOnlyRow(u.store);
  }

  /** In a linked table with unique keys, the last row is the only row of
      its post. */
  lemma LastRowIsOnlyRow(t: Store)
    requires UniqueKeys(t.meta) && RowsLinked(t) && |t.meta| > 0
    ensures var row := t.meta[|t.meta| - 1];
              && FirstByEventId(t.meta, row.eventId) == Some(row)
              && forall i :: 0 <= i < |t.meta| && t.meta[i].eventId == row.eventId ==> t.meta[i] == row
  {
    LinkedRowsHaveDistinctEvents(t);
    var k := |t.meta| - 1;
    assert forall i :: 0 <= i < |t.meta| && t.meta[i].eventId == t.meta[k].eventId ==> i == k;
  }
}

=== FILE: synced_content.dfy ===
/** What a synced event looks like in the calendar's modal: the two
    components meet at the side table, written by the sync and read by the
    enhancer by local post id. */
module SyncedContent {
  import opened Wrappers
  import opened Php
  import opened Host
  import opened Upstream
  import opened HostStore
  import opened EventSync
  import opened SyncProperties
  import opened ModalEnhancer

  /** Row links survive a whole batch of events whose ids the lookup can
      find again. */
  lemma {:induction false} SyncPreservesRowsLinked(h: Primitives, mode: LookupKeys, s: Store, evs: seq<Event>)
    requires Valid(s) && RowsLinked(s)
    requires forall i :: 0 <= i < |evs| ==> IdStable(h, mode, evs[i]) && RowKeyStable(h, evs[i])
    ensures RowsLinked(SyncEvents(h, mode, s, evs).store)
    decreases |evs|
  {
    if |evs| > 0 {
      var first := SyncSingleEvent(h, mode, s, evs[0]);
      SyncSinglePreservesRowsLinked(h, mode, s, evs[0]);
      assert forall i :: 0 <= i < |evs[1..]| ==> evs[1..][i] == evs[i + 1];
      SyncPreservesRowsLinked(h, mode, first.store, evs[1..]);
    }
  }

  /** The enhanced data the modal reads back for a synced event: exactly the
      event's payloads, absent ones as empty arrays. */
  function DataOf(e: Event): (r: EnhancedData)
    ensures r.artists == e.artists.GetOr([]) && r.socialMedia == e.socialMedia.GetOr([])
    ensures r.multimedia == e.multimedia.GetOr([]) && r.venue == VenueOf(e)
  {
    EnhancedData(e.artists.GetOr([]), VenueOf(e), e.socialMedia.GetOr([]), e.multimedia.GetOr([]))
  }

  /** Once an event is synced, the modal for its post (toggle on) is the
      original content followed by a block built from that event's own
      artists, social links and media; each section is there exactly when
      the event supplied a non-empty list. */
  lemma SyncedEventIsShown(h: Primitives, mode: LookupKeys, s: Store, e: Event,
                           option: Option<string>, esc: Escapers, content: seq<Piece>)
    requires Valid(s) && RowsLinked(s) && HasRequiredFields(e) && IdStable(h, mode, e) && RowKeyStable(h, e)
    requires ShouldEnhanceModals(option)
    ensures var r := SyncSingleEvent(h, mode, s, e);
            var block := BuildEnhancedContent(esc, DataOf(e));
              && r.result.Ok?
              && EnhanceEventModal(option, r.store.meta, esc, content, r.result.value) == content + [Enhanced(block)]
              && (HasSection(block, ArtistsKind) <==> e.artists.Some? && |e.artists.value| > 0)
              && (HasSection(block, SocialKind) <==> e.socialMedia.Some? && |e.socialMedia.value| > 0)
              && (HasSection(block, MediaKind) <==> e.multimedia.Some? && |e.multimedia.value| > 0)
  {
    var r := SyncSingleEvent(h, mode, s, e);
    SyncedEventHasItsRow(h, mode, s, e);
    assert GetEnhancedEventData(r.store.meta, r.result.value) == Some(DataOf(e));
  }
}

=== FILE: upstream.dfy ===
/** The decoded JSON the platform API returns. Every field the plugin reads
    with `isset`, `empty` or `??` is optional. */
module Upstream {
  import opened Wrappers

  datatype Venue = Venue(
    name: Option<string>,
    description: Option<string>,
    address: Option<string>,
    city: Option<string>,
    state: Option<string>,
    zip: Option<string>,
    country: Option<string>)

  /** The empty array `array()` that stands in for an absent venue. */
  const NoVenue := Venue(None, None, None, None, None, None, None)

  datatype Artist = Artist(name: Option<string>, bio: Option<string>, spotifyUrl: Option<string>)

  /** One entry of the platform → URL social-media map, kept in map order. */
  datatype SocialEntry = SocialEntry(platform: string, url: string)

  datatype Media = Media(kind: Option<string>, url: Option<string>, caption: Option<string>)

  datatype Event = Event(
    id: Option<string>,
    title: Option<string>,
    description: Option<string>,
    startDate: Option<string>,
    endDate: Option<string>,
    venue: Option<Venue>,
    artists: Option<seq<Artist>>,
    socialMedia: Option<seq<SocialEntry>>,
    multimedia: Option<seq<Media>>)

  /** `isset($event_data['id']) && isset($event_data['title'])`. */
  predicate HasRequiredFields(e: Event) {
    e.id.Some? && e.title.Some?
  }

  /** The `events` member of a decoded response body: absent (or a body that
      is not an object at all), present but not an array, or a list. */
  datatype EventsField = Missing | NotAnArray | Events(list: seq<Event>)

  /** Why the API client could not deliver a body. */
  datatype ApiError =
    | MissingCredentials
    | Transport(message: string)
    | HttpStatus(code: int)
    | InvalidJson

  /** The outcome of `get_events()`: a decoded body or a `WP_Error`. */
  datatype FetchResult = Fetched(events: EventsField) | FetchFailed(error: ApiError)
}

=== FILE: wrappers.dfy ===
/** Failure-compatible wrappers used throughout the model: an optional value
    (a PHP value that may be unset or null) and a value-or-error result
    (a return value that may be a `WP_Error`). */
module Wrappers {

  datatype Option<+T> = None | Some(value: T) {

    /** The value, or `default` when unset (PHP's `??` operator). */
    function GetOr(default: T): T {
      match this
      case Some(v) => v
      case None => default
    }
  }

  datatype Result<+T, +E> = Ok(value: T) | Err(error: E)
}
